=== FILE: README.md ===
# PixelPruner and PrunerIQ, modelled in Dafny

PixelPruner is a desktop tool for cutting fixed-size square or rectangular
crops out of a folder of images. A red rectangle follows the mouse over the
displayed image. A click saves the crop as `cropped_<counter>_<stem>.png`.
The user can step through the images, delete images and crops, undo the last
crop, toggle one of three side panes, and choose or type the crop size.

PrunerIQ is the companion analyser. It scans a folder (by default only the
files whose names start with `cropped_`). It scores each image's contrast,
clarity and noise against fixed thresholds and rates it from Poor to
Excellent, giving a reason. The results window can filter the list by
per-metric bounds and by rating.

The project models both halves as pure functions over immutable records:

| file | module | what it holds |
|---|---|---|
| `wrappers.dfy` | `Wrappers` | `Option` |
| `seqs.dfy` | `Seqs` | list comprehensions as `Filter`, subsequences, Python list indexing and `pop` |
| `text.dfy` | `Text` | ASCII `lower`, prefixes and suffixes, `", ".join`, decimal formatting, Python's `int()` on text, `split` |
| `paths.dfy` | `Paths` | Windows `basename`, `join` and the root of `splitext` |
| `prune_iq.dfy` | `PrunerIQ` | scoring, rating, result assembly and the folder scan |
| `panes.dfy` | `Panes` | the three mutually exclusive side panes |
| `crop_box.dfy` | `CropBox` | rectangle geometry: scaling, clamping, placement, wheel resize |
| `viewer.dfy` | `Viewer` | the window's state records and the messages handlers show |
| `navigation.dfy` | `Navigation` | next and previous image, deleting the current image, the pane toggle |
| `crop_history.dfy` | `CropHistory` | crop naming, saving, undo and deletion |
| `crop_size.dfy` | `CropSize` | the size drop-down, the custom-size dialog, mouse move and mouse wheel |
| `results_filter.dfy` | `ResultsFilter` | the analysis-results filter |
| `crops_analysis.dfy` | `CropsAnalysis` | every crop the window writes is one the analyser's crops-only scan picks up |

Each event handler becomes a function. It maps the relevant state record,
plus the user's answer to any dialog it opens, to a new record and a
`Notice`. The notice names the message box shown, or `Crashed` when Python
would raise part-way through.

The program imports `winsound`, so it runs only on Windows. Paths therefore
follow Windows conventions: `/` and `\` both separate, a `X:` drive prefix is
recognised, and `join` inserts `\`.

The three thresholds (70, 200, 15000) are module-level constants in the
code, and the model keeps them as constants rather than a configuration
value. A uniform grey image, with all three metrics 0, rates Fair and not
Poor, because a noise of 0 meets the noise threshold (`UniformGreyIsFair`).

## Model

| member | source | states |
|---|---|---|
| PrunerIQ.Clamp01 | pruneriq.py:49 | the clamped ratio lies in [0, 1] and is unchanged when it is already there |
| PrunerIQ.ScaleScore | pruneriq.py:46-51 | every score lies in [0, 100]; a value at or past the threshold saturates (100, or 0 when reversed); a value at or below 0 gives the opposite end; a value strictly between 0 and the threshold scores strictly between 0 and 100; between 0 and the threshold the score is proportional: 100 times the value over the threshold, or 100 minus that when reversed |
| PrunerIQ.ScaleScoreComplement | pruneriq.py:46-51 | the normal and reversed scores of one value always add up to 100 |
| PrunerIQ.ScaleScoreMonotone | pruneriq.py:46-51 | with a positive threshold the normal score never falls as the value grows, and the reversed score never rises |
| PrunerIQ.RatingOfScore | pruneriq.py:70-71 | the rating table maps each point count 0..3 to the rating of that rank |
| PrunerIQ.RateImage | pruneriq.py:53-74 | the rating's rank equals the number of thresholds met (3 minus the number failed); Excellent exactly when all pass and Poor exactly when all fail; the reason is "meets all thresholds" exactly for Excellent, and otherwise the failing metrics' phrases, in contrast-clarity-noise order, joined with ", " |
| PrunerIQ.ReasonLengthOf | pruneriq.py:53-74 | the reason's length is one of eight distinct values, one per pass/fail combination |
| PrunerIQ.ReasonDeterminesVerdict | pruneriq.py:53-74 | two images with the same reason text failed the same metrics and got the same rating |
| PrunerIQ.BoundariesInclusive | pruneriq.py:57-66 | metrics exactly at all three thresholds rate Excellent (the comparisons are inclusive) |
| PrunerIQ.UniformGreyIsFair | pruneriq.py:53-74 | all-zero metrics give Fair with reason "low contrast, low clarity" |
| PrunerIQ.AnalyzeImage | pruneriq.py:76-109 | the record carries the base name and the raw values unchanged; the contrast, clarity and noise percentages are the score scaling of each value against its own threshold, the noise one reversed; each percentage lies in [0, 100]; contrast and clarity percentages are 100 exactly when their thresholds are met; the noise percentage is 0 exactly when noise reaches the threshold and positive only when noise passes; the aesthetic placeholder is 0; rating and reason are those of the rating rule |
| PrunerIQ.Selected | pruneriq.py:136-137 | without the crops-only filter a name is selected exactly when it has an image extension; with it, exactly when it is selected without the filter and its lower-cased form starts with `cropped_` |
| PrunerIQ.SelectedIgnoresCase | pruneriq.py:136-137 | a name and its lower-case form are selected alike, with or without crops only |
| PrunerIQ.CropsOnlyNarrows | pruneriq.py:133-138 | the crops-only selection is exactly the crop-named part of the full selection, in the same order, so it is a subsequence of it |
| PrunerIQ.ListImages | pruneriq.py:133-138 | the loop picks exactly the listed files the selection rule accepts (prefix when crops only, and a case-insensitive image extension), in listing order |
| PrunerIQ.ScanFiles | pruneriq.py:139-145 | one result per file, in file order, each the analysis of that file; with a callback, the i-th report is (i+1, total) and there is one report per file; without one there are no reports |
| PrunerIQ.AnalyzeFolder | pruneriq.py:111-146 | the results are the analyses of the selected files of the listing, joined to the folder, in order, with progress reported as (index from 1, total) |
| PrunerIQ.NoImagesNoResults | pruneriq.py:133-138 | a listing in which no file is selected yields no files to analyse |
| PrunerIQ.CropsOnlyExample | pruneriq.py:133-138 | with crops only, `a.png` is skipped and `cropped_a.png` is kept |
| Seqs.Filter | pruneriq.py:133-138 | a comprehension keeps at most the input's elements, and everything it keeps satisfies the condition |
| Seqs.FilterMembership | pruneriq.py:133-138 | an element survives a comprehension exactly when it was in the input and satisfies the condition |
| Seqs.FilterSnoc | pruneriq.py:133-138 | a loop that appends kept elements as it scans computes the comprehension |
| Seqs.FilterIsSubseq | pruneriq.py:133-138 | a comprehension's result keeps the input order (it is a subsequence) |
| Seqs.FilterConjunction | pruneriq.py:136-137 | filtering by a conjunction equals filtering by one condition and then the other |
| Seqs.FilterKeepsAll | PixelPruner.py:1417-1443 | a condition every element meets drops nothing |
| Seqs.FilterKeepsNone | pruneriq.py:133-138 | a condition no element meets keeps nothing |
| Seqs.PyIndex | PixelPruner.py:1006 | a valid Python index, negative or not, denotes a position inside the list, and a non-negative one denotes itself |
| Seqs.RemoveAt | PixelPruner.py:1006 | `pop` at a position leaves the elements before it, shifts those after it down by one, and removes exactly one copy of the popped element |
| Text.Lower | pruneriq.py:136-137 | lower-casing keeps the length, leaves no upper-case ASCII letter, keeps every other character in place, and turns each capital into the letter 32 code points above it, a lower-case one |
| Text.LowerIdempotent | pruneriq.py:136-137 | lower-casing an already lower-cased text changes nothing |
| Text.LowerAppend | pruneriq.py:136-137 | lower-casing distributes over concatenation |
| Text.LowerFixed | pruneriq.py:136-137 | a text without upper-case ASCII letters is its own lower-case form |
| Text.JoinStartsWithFirst | pruneriq.py:74 | a join of non-empty parts starts with the first part |
| Text.Decimal | PixelPruner.py:661 | the decimal text of a counter is non-empty, all digits, and starts with 0 only for 0 |
| Text.DecimalRoundTrip | PixelPruner.py:661 | reading the digits of a formatted number gives the number back |
| Text.DecimalInjective | PixelPruner.py:661 | different counters format differently |
| Text.ParseIntDecimal | PixelPruner.py:499-500 | Python's `int()` reads a formatted non-negative number back as itself |
| Text.ParseInt | PixelPruner.py:499-500 | `int()` on text succeeds exactly when, after stripping surrounding whitespace, the text is a digit run (single underscores allowed between digits), optionally behind one `+` or `-`; the value is that of the digits with underscores dropped, negated for `-` |
| Text.Split | PixelPruner.py:535 | splitting always yields at least one part |
| Text.SplitNone | PixelPruner.py:535 | a text without the separator splits into itself alone |
| Text.SplitFirst | PixelPruner.py:535 | splitting at the first separator peels off the text before it |
| Paths.AfterLastSep | pruneriq.py:99 | the text after the last separator contains no separator and is a suffix of the path |
| Paths.AfterLastSepLongest | pruneriq.py:99 | that suffix is the longest one without a separator: it is the whole path, or a separator comes right before it |
| Paths.Basename | pruneriq.py:99 | a base name contains no separator and is the longest such suffix of the path after its drive: it is all of it, or a separator comes right before it |
| Paths.Join | PixelPruner.py:662 | a join is the folder, then at most one extra character, then the name; the extra character is a backslash, and it is left out exactly when the folder after its drive is empty or already ends in a separator, in which case the join is the plain concatenation |
| Paths.BasenameOfJoin | pruneriq.py:141 | the base name of a folder joined with a plain file name (no separator, no drive colon) is that file name |
| Paths.Stem | PixelPruner.py:660 | the root of `splitext` is a prefix of the name; when it is shorter, it is followed by a dot, no dot comes after that one, and the root is not only dots; when it is the whole name, the name has no dot or has only dots before its last one |
| Panes.Toggle | PixelPruner.py:844-855 | an unknown pane name changes nothing; otherwise at most one pane is on afterwards, and a pane is on exactly when it is the named pane and was off before |
| Panes.Shown | PixelPruner.py:857-877 | when at most one pane is on, the pane laid out is exactly the enabled one; none is laid out exactly when all are off |
| Panes.ToggleTwice | PixelPruner.py:844-855 | toggling the same pane twice restores the flags when no other pane was on |
| Panes.ToggleTwiceFromAllOff | PixelPruner.py:844-855 | from all panes off, toggling a pane twice returns to all off |
| Navigation.NextImage | PixelPruner.py:769-779 | without input it asks for an input folder; with no images it says so; otherwise only the index changes, stays in range, and moves one step forward, wrapping from the last image to the first |
| Navigation.PreviousImage | PixelPruner.py:781-791 | the same guards; one step back, wrapping from the first image to the last |
| Navigation.NextThenPrevious | PixelPruner.py:769-791 | a step forward then back (or back then forward) returns to the same image |
| Navigation.AdvanceWraps | PixelPruner.py:778 | k steps forward move the index k places round the list |
| Navigation.AdvanceFullCircle | PixelPruner.py:778 | as many steps forward as there are images come back to the starting image |
| Navigation.DeleteCurrentImage | PixelPruner.py:998-1011 | safe mode and missing input block it, and declining the confirmation changes nothing; an index `pop` rejects raises with nothing changed; otherwise, with the folder kept, exactly the image at the (Python) index leaves the list, the rest keep their order, and the index stays unless it fell off the end, in which case it becomes 0; deleting any image but the last shows the one after it; when there is no input folder and the deleted image was the only one, the reload shows the "Please select an input folder." notice, and otherwise no notice |
| Navigation.DeleteOnlyDraggedImage | PixelPruner.py:406-408 | deleting the one image dragged in without an input folder leaves an empty list at index 0 and shows "Please select an input folder." |
| Navigation.DeleteKeepsIndexValid | PixelPruner.py:1006-1010 | deleting one of two or more images leaves a valid index that shows the image after the deleted one, or the first image when the last was deleted |
| Navigation.TogglePane | PixelPruner.py:839-880 | without input it asks for an input folder; otherwise the flags are toggled, and the step forward and back leaves a valid index where it was |
| CropBox.Truncate | PixelPruner.py:538 | `int()` of a float truncates toward zero |
| CropBox.ToDisplayMonotone | PixelPruner.py:538 | scaling a larger non-negative length to the display never gives a smaller one |
| CropBox.ClampAsWrittenOverflows | PixelPruner.py:539-542 | as written, the clamp turns a 512x768 box on a 520x600 display into a 600x600 square that does not fit |
| CropBox.ClampAsWritten | PixelPruner.py:539-542 | the clamp as written always brings the height within the display and leaves a fitting box alone; on a display at least as wide as it is high the result fits; a result that does not fit is the square of the displayed height on a display higher than it is wide |
| CropBox.Clamp | PixelPruner.py:539-542 | the corrected clamp always fits the display, leaves a box that already fits unchanged, keeps sides non-negative, and agrees with the clamp as written whenever the display is at least as wide as it is high |
| CropBox.ClampCoord | PixelPruner.py:553 | `max(lo, min(v, hi))` is at least `lo`, at most `hi` when `lo <= hi`, and is `v` when `v` is already between them |
| CropBox.Place | PixelPruner.py:553-554 | the box starts at or right of and below the image's corner, has exactly the requested size, lies inside the image when that size fits, and starts at the mouse when the mouse leaves room for it |
| CropBox.PlaceAsWritten | PixelPruner.py:553-554 | the placement as written starts at or right of and below the image's corner and has the as-written clamped size; on a display at least as wide as it is high it lies inside the image |
| CropBox.PlaceAsWrittenLeavesImage | PixelPruner.py:545-553 | as written, a 512x768 crop on a 520x600 display ends at x = 600, outside the image, wherever the mouse is |
| CropBox.PlaceClamped | PixelPruner.py:545-553 | with the corrected clamp the box always lies inside the image, and keeps the scaled crop size exactly when that size fits |
| CropBox.WheelResize | PixelPruner.py:606-616 | a resize is accepted exactly when both new sides are at least 50 and the scaled new size fits the display; an accepted size is the old one plus or minus 50 on each side |
| CropHistory.CropFileName | PixelPruner.py:661 | a crop name starts with `cropped_`, ends with `.png`, and is at least 14 characters long (prefix, one digit, underscore, extension) |
| CropHistory.OutputFor | PixelPruner.py:646-654 | the output folder is empty exactly when the set output folder, the input folder and the picked folder are all empty; it is one of the three, the set output folder first, then the input folder |
| CropHistory.StemFromName | PixelPruner.py:657-661 | the source image's stem sits in a crop name between the underscore after the counter and the `.png` suffix |
| CropHistory.CounterFromName | PixelPruner.py:657-661 | a crop name starts with `cropped_`, and its text up to the next underscore is the counter |
| CropHistory.CropNamesDistinct | PixelPruner.py:657-661 | crops taken at different counter values get different names, whatever images they come from |
| CropHistory.CropImage | PixelPruner.py:644-664 | it stops with a message exactly when no output folder can be found (neither set nor picked); otherwise the output folder becomes the set one, else the input folder, else the picked one, and the counter goes up by one; an index the image list rejects raises with no crop recorded; otherwise the crop succeeds quietly and exactly one path is added at the front: the output folder joined with the crop name for the new counter and the current image |
| CropHistory.FirstCropIsNumberOne | PixelPruner.py:305 | the first crop of a session is numbered 1 and is the only crop recorded |
| CropHistory.PerformCrop | PixelPruner.py:760-767 | without input it asks for an input folder; otherwise the crop log is the crop's result; with auto-advance, the gallery moves one image forward unless the crop raised, even when no output folder was found |
| CropHistory.UndoLastCrop | PixelPruner.py:882-890 | safe mode blocks it; an empty list is reported; otherwise exactly the newest crop is forgotten and nothing else changes |
| CropHistory.CropThenUndo | PixelPruner.py:657-664 | undo right after a successful crop restores the crop list, while the counter stays advanced |
| CropHistory.DeleteCrop | PixelPruner.py:704-711 | safe mode blocks it and declining changes nothing; otherwise every copy of the path goes, every copy of every other entry stays (as multisets), their order is kept, and the counter and output folder are untouched |
| Seqs.FilterRemoveAll | PixelPruner.py:711 | a comprehension dropping one value removes all its copies and keeps every copy of the rest |
| CropSize.ParseSize | PixelPruner.py:535 | a size is read exactly when the text splits on `x` into at least two parts that all parse as integers, and it is the first two of them; a text without `x` is always rejected |
| CropSize.FormatSize | PixelPruner.py:506 | `f"{w}x{h}"` splits on `x` into exactly the two decimal texts of the width and the height |
| CropSize.ParseFormat | PixelPruner.py:506 | a size formatted as `WxH` parses back to the same width and height |
| CropSize.PresetSize | PixelPruner.py:131-139 | each preset entry before "Custom..." is a formatted size |
| CropSize.PresetsParse | PixelPruner.py:131-139 | every preset entry parses, so choosing one never makes the redraw raise, while "Custom..." itself does not parse |
| CropSize.InitialSizeParses | PixelPruner.py:147-148 | the start-up selection "512x512" parses to the start-up saved size (512, 512), which is also the shown size, the remembered entry, and one of the listed entries |
| CropSize.InsertBeforeLast | PixelPruner.py:509 | `insert(-1, v)` adds exactly one `v`, keeps the last entry last with `v` just before it, leaves the earlier entries in place, and gives `[v]` on an empty list |
| CropSize.UpdateCropBoxSize | PixelPruner.py:532-542 | with no rectangle nothing happens; an entry that does not parse raises with nothing changed; otherwise the parsed size becomes both the saved and the shown size, and the new rectangle starts at the image's corner, has the scaled size whenever that fits, and, with the corrected clamp, lies inside the image; on a display at least as wide as it is high it is exactly the rectangle the clamp as written gives |
| CropSize.DisplayImage | PixelPruner.py:419-452 | loading an image re-reads the selected entry, leaving the entry, the list and the remembered entry untouched: an entry that does not parse raises; otherwise the saved and shown sizes both become the parsed size and the rectangle starts at the new image's corner inside it |
| CropSize.ImageLoadUndoesWheel | PixelPruner.py:446-451 | after a wheel resize, loading the next image puts the shown size back to the selected entry |
| CropSize.ApplyCustomSize | PixelPruner.py:497-514 | the entries are rejected exactly when they are not both positive integers, and then nothing changes; otherwise the selected entry is the formatted typed size, parses back to it, and is remembered for Cancel; the list is untouched if it already held the entry, and otherwise gains exactly that entry just before the last one; the rest is the redraw `update_crop_box_size` performs on the updated selection, so with a rectangle the saved and shown sizes become the typed size |
| CropSize.CustomStaysLast | PixelPruner.py:508-511 | adding a custom size keeps "Custom..." last and the earlier entries in place; a new size goes in as the single entry just before "Custom..." |
| CropSize.OnMouseMove | PixelPruner.py:545-553 | only the rectangle moves, and it exists after exactly when it did before; it is the placement with the corrected clamp at the current size and lies inside the image; on a display at least as wide as it is high it is exactly the placement as written |
| CropSize.OnMouseWheel | PixelPruner.py:605-620 | the saved size never changes; a rejected resize changes nothing; an accepted one sets the shown size, keeps the rectangle's top-left corner, and gives it the scaled new size, which fits the display |
| CropSize.WheelUpThenDown | PixelPruner.py:605-620 | an accepted turn up followed by a turn down restores the shown size and keeps the corner, for a box of at least 50 pixels a side |
| CropsAnalysis.PrefixSuffixLower | pruneriq.py:136-137 | a name of the form `cropped_` + anything + `.png` passes both case-insensitive tests |
| CropsAnalysis.CropNameLower | PixelPruner.py:661 | every crop name lower-cases to a text that starts with `cropped_` and ends with `.png` |
| CropsAnalysis.CropNameSelected | pruneriq.py:133-138 | every crop name is selected by the crops-only scan |
| CropsAnalysis.CropNameShape | PixelPruner.py:661 | a crop name has no separator and starts with `cr`, so it has no drive colon |
| CropsAnalysis.CropNameIsBasename | PixelPruner.py:662 | the base name of the path a crop is saved at is the crop name |
| CropsAnalysis.CropsAreAnalysed | PixelPruner.py:1211 | after a successful crop, the saved file's name is selected by the crops-only scan the analyser runs on the output folder, and it is analysed whenever the folder listing holds it |
| ResultsFilter.PassesBounds | PixelPruner.py:1420-1438 | the per-metric loop, stopping at the first miss, accepts exactly when every metric lies within its minimum and maximum |
| ResultsFilter.ApplyFilter | PixelPruner.py:1417-1443 | the rows shown are exactly the results meeting all bounds and the rating choice, in their original order |
| ResultsFilter.FilterShowsExactlyMatches | PixelPruner.py:1417-1443 | the filter keeps the original order, and a row is shown exactly when it is a result that matches |
| ResultsFilter.NoCriteriaShowsAll | PixelPruner.py:1421-1440 | with every entry empty and "All" selected, every row is shown |
| ResultsFilter.RatingChoiceSelects | PixelPruner.py:1439-1440 | choosing a rating name accepts exactly the results with that rating |
| ResultsFilter.StricterRefines | PixelPruner.py:1417-1443 | stricter criteria on the full list show the same rows as on what looser criteria already showed |

## Left out

- Pixel work is not modelled: OpenCV and NumPy metric extraction, PIL cropping, resizing and saving, and thumbnails. The metric extraction is the parameter `measure` of `PrunerIQ.AnalyzeFolder`.
- File system effects (`os.listdir`, `os.remove`, `os.path.exists`) are not modelled. The directory listing is a parameter, and deletion only updates the lists.
- Dialogs and message boxes are not modelled. A confirmation is a boolean parameter, the folder picked in a dialog is a string parameter (empty when cancelled), and a message box is a `Notice`.
- Canvas drawing, window geometry, status-bar and counter labels, `sort_tree` and `update_summary` are not modelled. These are widget side effects. How `display_image` computes the scale and offsets from the window is not modelled either: the new `Display` is a parameter of `CropSize.DisplayImage`.
- Navigation.NextImage, Navigation.PreviousImage, Navigation.DeleteCurrentImage: each ends with `load_image`, which also resets the crop tool. These functions return only the image list, the index and the notice shown. The reset is `CropSize.DisplayImage`, a separate function, so applying it after a navigation step is left to the reader of the model (`CropSize.ImageLoadUndoesWheel` states that a wheel resize does not survive it).
- PrunerIQ.AnalyzeFolder: `measure` is total. In the program an unreadable file makes `cv2.imread` return `None`, `analyze_image` raises, and the scan stops after reporting progress for the earlier files. That abort is not modelled.
- `launch_pruneriq` is not modelled beyond its call. It runs the scan on a background thread and schedules the results window; `CropsAnalysis.CropsAreAnalysed` states the property of the scan it starts.
- Navigation.TogglePane: the two navigation steps are scheduled with `after(100)` and `after(200)`. They are modelled as running right after the toggle, with nothing in between.
- Text.Lower: only ASCII letters are lower-cased. Python also lower-cases other Unicode letters.
- Text.ParseInt: only ASCII digits and ASCII whitespace (space, tab to carriage return, and 0x1C to 0x1F) are recognised. Python also accepts non-ASCII digits and spaces.
- The results filter's Min and Max entries are numbers, or `None` for an empty entry or one `float()` rejects. Float parsing itself is not modelled. A NaN bound constrains nothing in Python, which agrees with `None`.
- ResultsFilter.PassesBounds: bounds are finite. `float()` also accepts "inf" and "-inf"; a Min of "inf" or a Max of "-inf" rejects every row, and the opposite ones constrain nothing. `Option<real>` has no value for them, so neither this function nor ResultsFilter.ApplyFilter covers them.
- Metric values are modelled as exact reals. Floating-point rounding in `value / threshold` and in the percentages is not modelled.
- CropBox.ToDisplay: the display scale `image_scale` is a float in the program and an exact real here, so `int(size / image_scale)` can differ by one from the model when the quotient lands just next to a whole number.
- CropSize.UpdateCropBoxSize: uses the corrected clamp (see Findings). On a display higher than it is wide, the program's rectangle can extend past the image's right edge. This function does not reproduce that; `CropBox.ClampAsWrittenOverflows` does.
- CropSize.OnMouseMove: uses the corrected clamp as well. On a display higher than it is wide, the program's rectangle can leave the image; `CropBox.PlaceAsWrittenLeavesImage` shows it.
- CropSize.DisplayImage: redraws through `UpdateCropBoxSize` and so uses the corrected clamp too. Its promise that the rectangle lies inside the image holds for the model, not for the program on a display higher than it is wide.
- CropSize.UpdateCropBoxSize: a one-part size text raises only after it has stored a one-element tuple as the size; the model leaves the state unchanged. A size text with three or more parts stores all of them; the model keeps the first two. Neither text can be selected through the window, because every entry is a preset or a formatted custom size.
- CropHistory.CropImage: the crop of the displayed image happens before the output-folder guard, so Python raises first when no image is displayed; image data is not modelled, and neither is that raise.
- CropHistory.UndoLastCrop: the thumbnail list is not modelled, so the `IndexError` raised when it is shorter than the crop list is not modelled.
- Paths.Basename: UNC paths (`\\server\share`) are treated as ordinary paths.
- CropBox.WheelResize: only the size is checked against the image. The position is not checked, so a resized box anchored at its old corner can extend past the image edge. The model reproduces this, and `CropSize.OnMouseWheel` states only the size bound.

## Findings

| source | as written | input that shows it | evidently intended | confidence | as-written member | corrected member |
|---|---|---|---|---|---|---|
| PixelPruner.py:539-542 | when the scaled height exceeds the displayed height, the box becomes a square of the displayed height, even when that is wider than the displayed width (the same clamp is at lines 549-552 in `on_mouse_move`) | a display 520 wide and 600 high, scale 1, crop size 512x768: the clamp gives 600x600 and the box ends at x = offset + 600, 80 pixels right of the image | the square should be no larger than either displayed side, that is `min(scaled_height, scaled_width)` | high, not executed | CropBox.ClampAsWrittenOverflows | CropBox.Clamp |

=== FILE: crop_box.dfy ===
/** Geometry of the red crop rectangle on the canvas: the crop size scaled
    to the displayed image, the clamp that keeps it no larger than the image,
    the placement that follows the mouse, and the mouse-wheel resize. */
module CropBox {
  import opened Wrappers

  /** A width/height pair in pixels (`current_size`, `original_size`). */
  datatype Size = Size(width: int, height: int)

  /** Canvas rectangle corners `(x1, y1, x2, y2)`. */
  datatype Box = Box(x1: int, y1: int, x2: int, y2: int)

  /** Where and how large the image is drawn: its top-left corner on the
      canvas, its displayed size, and `image_scale` (original pixels per
      displayed pixel). */
  datatype Display = Display(offsetX: int, offsetY: int, scaledWidth: int, scaledHeight: int, scale: real)

  /** Python's `int(x)` on a float: truncation toward zero. */
  function Truncate(x: real): (n: int)
    ensures x >= 0.0 ==> n as real <= x < n as real + 1.0
    ensures x < 0.0 ==> n as real - 1.0 < x <= n as real
  {
    if x >= 0.0 then x.Floor else -((-x).Floor)
  }

  /** `int(length / image_scale)`: a length in original pixels measured in displayed pixels. */
  function ToDisplay(length: int, scale: real): int
    requires scale != 0.0
  {
    Truncate(length as real / scale)
  }

  function Scaled(s: Size, scale: real): Size
    requires scale != 0.0
  {
    Size(ToDisplay(s.width, scale), ToDisplay(s.height, scale))
  }

  /** Truncated scaling preserves order for a positive scale. */
  lemma ToDisplayMonotone(a: int, b: int, scale: real)
    requires 0 <= a <= b && scale > 0.0
    ensures 0 <= ToDisplay(a, scale) <= ToDisplay(b, scale)
  {
    assert a as real / scale <= b as real / scale by {
      assert b as real / scale - a as real / scale == (b - a) as real / scale;
    }
  }

  predicate Fits(s: Size, d: Display) {
    s.width <= d.scaledWidth && s.height <= d.scaledHeight
  }

  /** The clamp exactly as the program writes it: an oversize width makes the
      box a square of the displayed width, and then an oversize height makes
      it a square of the displayed height. */
  function ClampAsWritten(s: Size, d: Display): (c: Size)
    ensures c.height <= d.scaledHeight
    ensures Fits(s, d) ==> c == s
    ensures d.scaledHeight <= d.scaledWidth ==> Fits(c, d)
    ensures !Fits(c, d) ==> c == Size(d.scaledHeight, d.scaledHeight) && d.scaledHeight > d.scaledWidth
  {
    var t := if s.width > d.scaledWidth then Size(d.scaledWidth, d.scaledWidth) else s;
    if t.height > d.scaledHeight then Size(d.scaledHeight, d.scaledHeight) else t
  }

  /** A portrait display 520 wide and 600 high with a 512x768 box: the
      clamped square is 600 wide, wider than the image. */
  lemma ClampAsWrittenOverflows()
    ensures var d := Display(0, 0, 520, 600, 1.0);
      var c := ClampAsWritten(Size(512, 768), d);
      c == Size(600, 600) && !Fits(c, d)
  {
  }

  /** The clamp with the second square limited by both displayed sides, so
      that the box always fits; identical to `ClampAsWritten` whenever the
      display is at least as wide as it is high. */
  function Clamp(s: Size, d: Display): (c: Size)
    requires d.scaledWidth >= 0 && d.scaledHeight >= 0
    ensures Fits(c, d)
    ensures Fits(s, d) ==> c == s
    ensures s.width >= 0 && s.height >= 0 ==> c.width >= 0 && c.height >= 0
    ensures d.scaledHeight <= d.scaledWidth ==> c == ClampAsWritten(s, d)
  {
    var t := if s.width > d.scaledWidth then Size(d.scaledWidth, d.scaledWidth) else s;
    if t.height > d.scaledHeight then
      var side := if d.scaledHeight <= d.scaledWidth then d.scaledHeight else d.scaledWidth;
      Size(side, side)
    else t
  }

  predicate Inside(b: Box, d: Display) {
    d.offsetX <= b.x1 && b.x2 <= d.offsetX + d.scaledWidth
    && d.offsetY <= b.y1 && b.y2 <= d.offsetY + d.scaledHeight
  }

  /** `max(lo, min(v, hi))`. */
  function ClampCoord(v: int, lo: int, hi: int): (r: int)
    ensures r >= lo
    ensures lo <= hi ==> r <= hi
    ensures lo <= v <= hi ==> r == v
  {
    var m := if v < hi then v else hi;
    if lo > m then lo else m
  }

  /** Places a box of size `s` with its top-left corner at the mouse
      position, pushed back so that it starts inside the image and, when it
      fits, ends inside it too. */
  function Place(mouseX: int, mouseY: int, s: Size, d: Display): (b: Box)
    ensures b.x1 >= d.offsetX && b.y1 >= d.offsetY
    ensures b.x2 - b.x1 == s.width && b.y2 - b.y1 == s.height
    ensures s.width >= 0 && s.height >= 0 && Fits(s, d) ==> Inside(b, d)
    ensures d.offsetX <= mouseX <= d.offsetX + d.scaledWidth - s.width ==> b.x1 == mouseX
    ensures d.offsetY <= mouseY <= d.offsetY + d.scaledHeight - s.height ==> b.y1 == mouseY
  {
    var x1 := ClampCoord(mouseX, d.offsetX, d.offsetX + d.scaledWidth - s.width);
    var y1 := ClampCoord(mouseY, d.offsetY, d.offsetY + d.scaledHeight - s.height);
    Box(x1, y1, x1 + s.width, y1 + s.height)
  }

  /** The box as the program places it, using the clamp as written. */
  function PlaceAsWritten(mouseX: int, mouseY: int, s: Size, d: Display): (b: Box)
    requires d.scale != 0.0
    ensures var c := ClampAsWritten(Scaled(s, d.scale), d);
      b.x1 >= d.offsetX && b.y1 >= d.offsetY && b.x2 - b.x1 == c.width && b.y2 - b.y1 == c.height
    ensures var c := ClampAsWritten(Scaled(s, d.scale), d);
      c.width >= 0 && c.height >= 0 && d.scaledHeight <= d.scaledWidth ==> Inside(b, d)
  {
    Place(mouseX, mouseY, ClampAsWritten(Scaled(s, d.scale), d), d)
  }

  /** With the clamp as written, a 512x768 crop over a 520x600 display ends
      80 pixels to the right of the image, wherever the mouse is. */
  lemma PlaceAsWrittenLeavesImage(mouseX: int, mouseY: int)
    ensures var d := Display(0, 0, 520, 600, 1.0);
      var b := PlaceAsWritten(mouseX, mouseY, Size(512, 768), d);
      b.x2 == 600 && !Inside(b, d)
  {
    var d := Display(0, 0, 520, 600, 1.0);
    assert Scaled(Size(512, 768), 1.0) == Size(512, 768);
  }

  /** The box that follows the mouse, using the corrected clamp: it always
      lies inside the displayed image. */
  function PlaceClamped(mouseX: int, mouseY: int, s: Size, d: Display): (b: Box)
    requires d.scale > 0.0 && d.scaledWidth >= 0 && d.scaledHeight >= 0
    requires s.width >= 0 && s.height >= 0
    ensures Inside(b, d)
    ensures Fits(Scaled(s, d.scale), d) ==>
      b.x2 - b.x1 == ToDisplay(s.width, d.scale) && b.y2 - b.y1 == ToDisplay(s.height, d.scale)
  {
    var scaled := Scaled(s, d.scale);
    ToDisplayMonotone(0, s.width, d.scale);
    ToDisplayMonotone(0, s.height, d.scale);
    assert ToDisplay(0, d.scale) == 0;
    var c := Clamp(scaled, d);
    Place(mouseX, mouseY, c, d)
  }

  /** `+50` for a wheel turn away from the user (positive delta), `-50` otherwise. */
  function WheelStep(delta: int): int {
    if delta > 0 then 50 else -50
  }

  const MinSide: int := 50

  /** The new crop size a wheel turn asks for, if the program accepts it: it
      refuses a side below 50 pixels and a box larger than the displayed image. */
  function WheelResize(current: Size, delta: int, d: Display): (r: Option<Size>)
    requires d.scale != 0.0
    ensures r.Some? ==> r.value.width == current.width + WheelStep(delta)
    ensures r.Some? ==> r.value.height == current.height + WheelStep(delta)
    ensures r.Some? ==> r.value.width >= MinSide && r.value.height >= MinSide
    ensures r.Some? ==> Fits(Scaled(r.value, d.scale), d)
    ensures r.None? <==>
      var n := Size(current.width + WheelStep(delta), current.height + WheelStep(delta));
      n.width < MinSide || n.height < MinSide || !Fits(Scaled(n, d.scale), d)
  {
    var step := WheelStep(delta);
    var n := Size(current.width + step, current.height + step);
    if n.width < MinSide || n.height < MinSide then None
    else
      var sw := ToDisplay(n.width, d.scale);
      var sh := ToDisplay(n.height, d.scale);
      if sw > d.scaledWidth || sh > d.scaledHeight then None
      else Some(n)
  }
}

=== FILE: crop_history.dfy ===
/** Saving crops: the file name built from the global crop counter and the
    source image's name, the newest-first list of crops written, undo of the
    newest crop and deletion of any crop. The pixel work (PIL crop, resize
    and save) is not part of the model. */
module CropHistory {
  import opened Text
  import opened Seqs
  import Paths
  import opened Viewer
  import Navigation

  const CropNamePrefix: string := "cropped_"

  /** `f"cropped_{counter}_{stem}.png"`, where `stem` is the source image's
      file name without its extension. */
  function CropFileName(counter: nat, imagePath: string): (name: string)
    ensures |name| >= |CropNamePrefix| + 6
    ensures name[..|CropNamePrefix|] == CropNamePrefix && name[|name| - 4..] == ".png"
  {
    var digits, stem := Decimal(counter), Paths.Stem(Paths.Basename(imagePath));
    NameAround(digits, stem);
    CropNamePrefix + (digits + ['_'] + (stem + ".png"))
  }

  lemma NameAround(digits: string, stem: string)
    requires |digits| >= 1
    ensures var name := CropNamePrefix + (digits + ['_'] + (stem + ".png"));
      && |name| >= |CropNamePrefix| + 6
      && name[..|CropNamePrefix|] == CropNamePrefix && name[|name| - 4..] == ".png"
  {
    var rest := stem + ".png";
    var name := CropNamePrefix + (digits + ['_'] + rest);
    assert name[|name| - 4..] == rest[|rest| - 4..];
  }

  /** The counter can be read back from a crop name: the digits after the
      prefix, up to the first underscore. */
  lemma CounterFromName(counter: nat, imagePath: string)
    ensures var name := CropFileName(counter, imagePath);
      StartsWith(name, CropNamePrefix)
      && Split(name[|CropNamePrefix|..], '_')[0] == Decimal(counter)
  {
    var digits := Decimal(counter);
    var rest := Paths.Stem(Paths.Basename(imagePath)) + ".png";
    DigitsThenRest(digits, rest);
  }

  lemma DigitsThenRest(digits: string, rest: string)
    requires AllDigits(digits)
    ensures var name := CropNamePrefix + (digits + ['_'] + rest);
      StartsWith(name, CropNamePrefix) && Split(name[|CropNamePrefix|..], '_')[0] == digits
  {
    var tail := digits + ['_'] + rest;
    SplitFirst(digits, '_', rest);
    assert (CropNamePrefix + tail)[|CropNamePrefix|..] == tail;
  }

  /** `name` holds `stem` between the underscore that follows the prefix
      and `digitCount` digits, and the four-character suffix. */
  predicate StemAt(name: string, digitCount: nat, stem: string) {
    var start := |CropNamePrefix| + digitCount + 1;
    start <= |name| - 4 && name[start - 1] == '_' && name[start..|name| - 4] == stem
  }

  lemma StemBetween(digits: string, stem: string)
    ensures StemAt(CropNamePrefix + (digits + ['_'] + (stem + ".png")), |digits|, stem)
  {
  }

  /** The source image's stem can be read back from a crop name too: it
      sits between the underscore after the counter and the `.png` suffix. */
  lemma StemFromName(counter: nat, imagePath: string)
    ensures StemAt(CropFileName(counter, imagePath), |Decimal(counter)|, Paths.Stem(Paths.Basename(imagePath)))
  {
    StemBetween(Decimal(counter), Paths.Stem(Paths.Basename(imagePath)));
  }

  /** Crops taken at different counter values never share a name, whatever
      images they come from. */
  lemma CropNamesDistinct(n1: nat, p1: string, n2: nat, p2: string)
    requires n1 != n2
    ensures CropFileName(n1, p1) != CropFileName(n2, p2)
  {
    CounterFromName(n1, p1);
    CounterFromName(n2, p2);
    if CropFileName(n1, p1) == CropFileName(n2, p2) {
      DecimalInjective(n1, n2);
    }
  }

  /** The folder crops go to: the output folder if set, else the input
      folder, else the folder picked in the dialog (empty if cancelled). */
  function OutputFor(log: CropLog, g: Gallery, picked: string): (folder: string)
    ensures folder == "" <==> log.outputFolder == "" && g.folderPath == "" && picked == ""
    ensures folder == log.outputFolder || folder == g.folderPath || folder == picked
    ensures log.outputFolder != "" ==> folder == log.outputFolder
    ensures log.outputFolder == "" && g.folderPath != "" ==> folder == g.folderPath
  {
    if log.outputFolder != "" then log.outputFolder
    else if g.folderPath != "" then g.folderPath
    else picked
  }

  /** `crop_image`, given the folder the user picks if asked for one. The
      counter is incremented before the source image is looked up, so an
      index Python rejects leaves it incremented with no crop recorded. */
  function CropImage(g: Gallery, log: CropLog, picked: string): (r: Outcome<CropLog>)
    ensures r.notice == NoOutputFolder <==> OutputFor(log, g, picked) == ""
    ensures r.notice == NoOutputFolder ==> r.value == log
    ensures r.notice != NoOutputFolder ==> r.value.outputFolder == OutputFor(log, g, picked) != ""
    ensures r.notice != NoOutputFolder ==> r.value.counter == log.counter + 1
    ensures r.notice == Crashed <==> OutputFor(log, g, picked) != "" && !PyIndexValid(g.index, |g.images|)
    ensures r.notice == Crashed ==> r.value.cropped == log.cropped
    ensures OutputFor(log, g, picked) != "" && PyIndexValid(g.index, |g.images|) ==> r.notice == Quiet
    ensures r.notice == Quiet ==>
      && PyIndexValid(g.index, |g.images|)
      && |r.value.cropped| == |log.cropped| + 1
      && r.value.cropped[1..] == log.cropped
      && r.value.cropped[0] == Paths.Join(r.value.outputFolder,
           CropFileName(r.value.counter, g.images[PyIndex(g.index, |g.images|)]))
  {
    var output := OutputFor(log, g, picked);
    if output == "" then Outcome(log, NoOutputFolder)
    else
      var counter := log.counter + 1;
      if !PyIndexValid(g.index, |g.images|) then
        Outcome(CropLog(output, counter, log.cropped), Crashed)
      else
        var name := CropFileName(counter, g.images[PyIndex(g.index, |g.images|)]);
        Outcome(CropLog(output, counter, [Paths.Join(output, name)] + log.cropped), Quiet)
  }

  /** The counter starts at 0, so the first crop of a session is number 1
      and is the only entry of the list. */
  lemma FirstCropIsNumberOne(g: Gallery, picked: string)
    requires OutputFor(InitialLog, g, picked) != "" && PyIndexValid(g.index, |g.images|)
    ensures var after := CropImage(g, InitialLog, picked).value;
      after.counter == 1 && |after.cropped| == 1
      && after.cropped[0] == Paths.Join(after.outputFolder, CropFileName(1, g.images[PyIndex(g.index, |g.images|)]))
  {
  }

  /** `perform_crop`: the input guard, the crop, then one step forward when
      auto-advance is on. The step is taken even when no output folder could
      be found, but not after the crop raised. */
  function PerformCrop(g: Gallery, log: CropLog, picked: string, autoAdvance: bool): (r: Outcome<(Gallery, CropLog)>)
    ensures !HasInput(g) ==> r == Outcome((g, log), AskInputFolder)
    ensures HasInput(g) ==> r.value.1 == CropImage(g, log, picked).value
    ensures HasInput(g) && (!autoAdvance || CropImage(g, log, picked).notice == Crashed) ==> r.value.0 == g
    ensures HasInput(g) && autoAdvance && CropImage(g, log, picked).notice != Crashed ==>
      r.value.0 == Navigation.NextImage(g).value
  {
    if !HasInput(g) then Outcome((g, log), AskInputFolder)
    else
      var crop := CropImage(g, log, picked);
      if crop.notice == Crashed || !autoAdvance then Outcome((g, crop.value), crop.notice)
      else
        var next := Navigation.NextImage(g);
        Outcome((next.value, crop.value), if crop.notice == Quiet then next.notice else crop.notice)
  }

  /** `undo_last_crop`: forgets the newest crop. The counter is not wound
      back, so the next crop gets a fresh name. */
  function UndoLastCrop(log: CropLog, safeMode: bool): (r: Outcome<CropLog>)
    ensures safeMode ==> r == Outcome(log, SafeModeBlocked)
    ensures !safeMode && |log.cropped| == 0 ==> r == Outcome(log, NothingToUndo)
    ensures !safeMode && |log.cropped| > 0 ==>
      r.notice == Quiet && r.value == log.(cropped := log.cropped[1..])
  {
    if safeMode then Outcome(log, SafeModeBlocked)
    else if |log.cropped| == 0 then Outcome(log, NothingToUndo)
    else Outcome(log.(cropped := log.cropped[1..]), Quiet)
  }

  /** Undo right after a successful crop restores the list of crops. */
  lemma CropThenUndo(g: Gallery, log: CropLog, picked: string)
    requires OutputFor(log, g, picked) != "" && PyIndexValid(g.index, |g.images|)
    ensures UndoLastCrop(CropImage(g, log, picked).value, false).value.cropped == log.cropped
    ensures UndoLastCrop(CropImage(g, log, picked).value, false).value.counter == log.counter + 1
  {
  }

  function IsNot(path: string): string -> bool {
    p => p != path
  }

  /** `delete_crop`, given the answer to the confirmation dialog: every entry
      equal to `path` is dropped and the rest keep their order. */
  function DeleteCrop(log: CropLog, path: string, safeMode: bool, confirmed: bool): (r: Outcome<CropLog>)
    ensures safeMode ==> r == Outcome(log, SafeModeBlocked)
    ensures !safeMode && !confirmed ==> r == Outcome(log, Quiet)
    ensures !safeMode && confirmed ==> r.notice == Quiet && r.value.counter == log.counter
    ensures !safeMode && confirmed ==> r.value.outputFolder == log.outputFolder
    ensures !safeMode && confirmed ==> path !in r.value.cropped
    ensures !safeMode && confirmed ==> IsSubseq(r.value.cropped, log.cropped)
    ensures !safeMode && confirmed ==> forall p :: p in log.cropped && p != path ==> p in r.value.cropped
    ensures !safeMode && confirmed ==> multiset(r.value.cropped) == multiset(log.cropped)[path := 0]
  {
    if safeMode then Outcome(log, SafeModeBlocked)
    else if !confirmed then Outcome(log, Quiet)
    else
      var kept := Filter(log.cropped, IsNot(path));
      FilterIsSubseq(log.cropped, IsNot(path));
      FilterMembership(log.cropped, IsNot(path), path);
      FilterRemoveAll(log.cropped, path, IsNot(path));
      assert forall p :: p in log.cropped && p != path ==> p in kept by {
        forall p | p in log.cropped && p != path
          ensures p in kept
        {
          FilterMembership(log.cropped, IsNot(path), p);
        }
      }
      Outcome(log.(cropped := kept), Quiet)
  }
}

=== FILE: crop_size.dfy ===
/** The crop-size drop-down and the rectangle's event handlers: parsing the
    selected "WxH" entry, the custom-size dialog, the rectangle following the
    mouse and the mouse-wheel resize. */
module CropSize {
  import opened Wrappers
  import opened Text
  import opened CropBox
  import opened Viewer

  /** `f"{w}x{h}"`. */
  function FormatSize(w: nat, h: nat): (text: string)
    ensures Split(text, 'x') == [Decimal(w), Decimal(h)]
  {
    assert 'x' !in Decimal(w) by {
      assert forall i :: 0 <= i < |Decimal(w)| ==> IsDigit(Decimal(w)[i]);
    }
    assert 'x' !in Decimal(h) by {
      assert forall i :: 0 <= i < |Decimal(h)| ==> IsDigit(Decimal(h)[i]);
    }
    SplitFirst(Decimal(w), 'x', Decimal(h));
    SplitNone(Decimal(h), 'x');
    Decimal(w) + ['x'] + Decimal(h)
  }

  /** `tuple(map(int, text.split('x')))` followed by reading the first two
      entries: `None` where Python raises, because a part is not an integer
      or there is no second part. */
  function ParseSize(text: string): (r: Option<Size>)
    ensures r.Some? <==>
      var parts := Split(text, 'x');
      |parts| >= 2 && forall i :: 0 <= i < |parts| ==> ParseInt(parts[i]).Some?
    ensures r.Some? ==>
      r.value == Size(ParseInt(Split(text, 'x')[0]).value, ParseInt(Split(text, 'x')[1]).value)
    ensures 'x' !in text ==> r.None?
  {
    var parts := Split(text, 'x');
    if forall i :: 0 <= i < |parts| ==> ParseInt(parts[i]).Some? then
      if |parts| < 2 then None
      else Some(Size(ParseInt(parts[0]).value, ParseInt(parts[1]).value))
    else None
  }

  /** Every size the program formats parses back to itself. */
  lemma ParseFormat(w: nat, h: nat)
    ensures ParseSize(FormatSize(w, h)) == Some(Size(w, h))
  {
    ParseIntDecimal(w);
    ParseIntDecimal(h);
  }

  lemma Decimal512()
    ensures Decimal(512) == "512"
  {
    assert Decimal(5) == "5";
    assert Decimal(51) == "51";
  }

  lemma Decimal768()
    ensures Decimal(768) == "768"
  {
    assert Decimal(7) == "7";
    assert Decimal(76) == "76";
  }

  lemma Decimal1024()
    ensures Decimal(1024) == "1024"
  {
    assert Decimal(1) == "1";
    assert Decimal(10) == "10";
    assert Decimal(102) == "102";
  }

  lemma Decimal2048()
    ensures Decimal(2048) == "2048"
  {
    assert Decimal(2) == "2";
    assert Decimal(20) == "20";
    assert Decimal(204) == "204";
  }

  /** Every preset entry is a formatted size, so selecting one never makes
      the redraw raise. */
  lemma PresetsParse()
    ensures forall i :: 0 <= i < |PresetOptions| - 1 ==> ParseSize(PresetOptions[i]).Some?
    ensures ParseSize(CustomOption).None?
  {
    assert 'x' !in CustomOption;
    forall i | 0 <= i < |PresetOptions| - 1
      ensures ParseSize(PresetOptions[i]).Some?
    {
      var (w, h) := PresetSize(i);
      ParseFormat(w, h);
    }
  }

  /** The width and height the `i`-th preset entry spells. */
  function PresetSize(i: nat): (wh: (nat, nat))
    requires i < |PresetOptions| - 1
    ensures PresetOptions[i] == FormatSize(wh.0, wh.1)
  {
    Decimal512();
    Decimal768();
    Decimal1024();
    Decimal2048();
    if i == 0 then (512, 512)
    else if i == 1 then (768, 768)
    else if i == 2 then (1024, 1024)
    else if i == 3 then (2048, 2048)
    else if i == 4 then (512, 768)
    else (768, 512)
  }

  /** The window opens with "512x512" selected, and that entry is the size
      it starts with. */
  lemma InitialSizeParses()
    ensures ParseSize(InitialTool.choice) == Some(InitialTool.originalSize)
    ensures InitialTool.currentSize == InitialTool.originalSize
    ensures InitialTool.choice == InitialTool.previousSize && InitialTool.choice in InitialTool.options
  {
    Decimal512();
    ParseFormat(512, 512);
    assert InitialTool.choice == FormatSize(512, 512);
  }

  /** `values.insert(-1, v)`: `v` goes just before the last entry, or becomes
      the only entry of an empty list. */
  function InsertBeforeLast(xs: seq<string>, v: string): (ys: seq<string>)
    ensures |ys| == |xs| + 1
    ensures multiset(ys) == multiset(xs) + multiset{v}
    ensures |xs| > 0 ==> ys[|ys| - 1] == xs[|xs| - 1] && ys[|ys| - 2] == v
    ensures |xs| > 0 ==> ys[..|xs| - 1] == xs[..|xs| - 1]
    ensures |xs| == 0 ==> ys == [v]
  {
    if |xs| == 0 then [v]
    else
      var k := |xs| - 1;
      assert xs == xs[..k] + xs[k..];
      xs[..k] + [v] + xs[k..]
  }

  /** `update_crop_box_size`, with the corrected clamp: the selected entry
      becomes both the saved and the shown crop size, and the rectangle is
      redrawn at the image's top-left corner, scaled to the display and
      clamped to it. An entry that does not parse raises, leaving the state
      as it was. */
  function UpdateCropBoxSize(t: CropTool): (r: Outcome<CropTool>)
    requires Ready(t)
    ensures Ready(r.value)
    ensures t.rect.None? ==> r == Outcome(t, Quiet)
    ensures t.rect.Some? && ParseSize(t.choice).None? ==> r == Outcome(t, Crashed)
    ensures t.rect.Some? && ParseSize(t.choice).Some? ==>
      var s := ParseSize(t.choice).value;
      var d := t.display;
      && r.notice == Quiet
      && r.value == t.(originalSize := s, currentSize := s, rect := r.value.rect)
      && r.value.rect.Some? && Inside(r.value.rect.value, d)
      && r.value.rect.value.x1 == d.offsetX && r.value.rect.value.y1 == d.offsetY
      && (Fits(Scaled(s, d.scale), d) ==>
            r.value.rect.value.x2 - r.value.rect.value.x1 == ToDisplay(s.width, d.scale)
            && r.value.rect.value.y2 - r.value.rect.value.y1 == ToDisplay(s.height, d.scale))
      && (d.scaledHeight <= d.scaledWidth ==>
            var c := ClampAsWritten(Scaled(s, d.scale), d);
            r.value.rect.value == Box(d.offsetX, d.offsetY, d.offsetX + c.width, d.offsetY + c.height))
  {
    if t.rect.None? then Outcome(t, Quiet)
    else
      match ParseSize(t.choice)
      case None => Outcome(t, Crashed)
      case Some(s) =>
        var d := t.display;
        var c := Clamp(Scaled(s, d.scale), d);
        var box := Box(d.offsetX, d.offsetY, d.offsetX + c.width, d.offsetY + c.height);
        Outcome(t.(originalSize := s, currentSize := s, rect := Some(box)), Quiet)
  }

  /** The crop-tool part of `display_image`, which runs after every image
      load (and so after every navigation step): with the image shown at `d`,
      the selected entry is parsed again into the saved and the shown size,
      and the rectangle is redrawn at the image's corner by
      `update_crop_box_size`. A wheel resize does not survive it. */
  function DisplayImage(t: CropTool, d: Display): (r: Outcome<CropTool>)
    requires d.scale > 0.0 && d.scaledWidth >= 0 && d.scaledHeight >= 0
    ensures Ready(r.value) && r.value.display == d
    ensures r.value == t.(display := d, originalSize := r.value.originalSize,
                          currentSize := r.value.currentSize, rect := r.value.rect)
    ensures ParseSize(t.choice).None? ==> r == Outcome(t.(display := d), Crashed)
    ensures ParseSize(t.choice).Some? ==>
      && r.notice == Quiet
      && r.value.originalSize == ParseSize(t.choice).value
      && r.value.currentSize == r.value.originalSize
      && r.value.rect.Some? && Inside(r.value.rect.value, d)
      && r.value.rect.value.x1 == d.offsetX && r.value.rect.value.y1 == d.offsetY
  {
    match ParseSize(t.choice)
    case None => Outcome(t.(display := d), Crashed)
    case Some(s) =>
      var first := Box(d.offsetX, d.offsetY, d.offsetX + ToDisplay(s.width, d.scale), d.offsetY + ToDisplay(s.height, d.scale));
      UpdateCropBoxSize(t.(display := d, originalSize := s, currentSize := s, rect := Some(first)))
  }

  /** Stepping to another image after a wheel resize puts the shown size
      back to the selected entry. */
  lemma ImageLoadUndoesWheel(t: CropTool, delta: int, d: Display)
    requires Ready(t) && d.scale > 0.0 && d.scaledWidth >= 0 && d.scaledHeight >= 0
    requires ParseSize(t.choice).Some?
    ensures DisplayImage(OnMouseWheel(t, delta), d).value.currentSize == ParseSize(t.choice).value
  {
  }

  /** The `apply` button of the custom-size dialog, given the two entry
      texts: both must be positive integers; the formatted size is added
      before "Custom..." unless listed already, selected, remembered for
      Cancel, and applied to the rectangle. */
  function ApplyCustomSize(t: CropTool, widthText: string, heightText: string): (r: Outcome<CropTool>)
    requires Ready(t)
    ensures Ready(r.value)
    ensures r.notice == InvalidSize <==>
      var w := ParseInt(widthText);
      var h := ParseInt(heightText);
      !(w.Some? && h.Some? && w.value > 0 && h.value > 0)
    ensures r.notice == InvalidSize ==> r.value == t
    ensures r.notice != InvalidSize ==>
      var size := Size(ParseInt(widthText).value, ParseInt(heightText).value);
      && r.notice == Quiet
      && r.value.choice == FormatSize(size.width, size.height)
      && ParseSize(r.value.choice) == Some(size)
      && r.value.choice == r.value.previousSize
      && r.value.choice in r.value.options
      && (r.value.choice in t.options ==> r.value.options == t.options)
      && (r.value.choice !in t.options ==> r.value.options == InsertBeforeLast(t.options, r.value.choice))
      && r == UpdateCropBoxSize(t.(options := r.value.options, choice := r.value.choice, previousSize := r.value.choice))
      && (t.rect.Some? ==> r.value.originalSize == size && r.value.currentSize == size)
      && (t.rect.None? ==> r.value.originalSize == t.originalSize && r.value.rect.None?)
  {
    var w := ParseInt(widthText);
    var h := ParseInt(heightText);
    if !(w.Some? && h.Some? && w.value > 0 && h.value > 0) then Outcome(t, InvalidSize)
    else
      var value := FormatSize(w.value, h.value);
      ParseFormat(w.value, h.value);
      var options := if value in t.options then t.options else InsertBeforeLast(t.options, value);
      assert value in options by {
        if value !in t.options {
          assert value in multiset(options);
        }
      }
      UpdateCropBoxSize(t.(options := options, choice := value, previousSize := value))
  }

  lemma InsertBeforeLastShape(xs: seq<string>, v: string)
    requires |xs| > 0
    ensures InsertBeforeLast(xs, v) == xs[..|xs| - 1] + [v, xs[|xs| - 1]]
  {
    var ys, k := InsertBeforeLast(xs, v), |xs| - 1;
    assert ys == ys[..k] + [ys[k], ys[k + 1]];
  }

  /** A custom size added to a list that ends in "Custom..." keeps it
      last and leaves the entries before it in place. */
  lemma CustomStaysLast(t: CropTool, widthText: string, heightText: string)
    requires Ready(t) && |t.options| > 0 && t.options[|t.options| - 1] == CustomOption
    requires ParseInt(widthText).Some? && ParseInt(widthText).value > 0
    requires ParseInt(heightText).Some? && ParseInt(heightText).value > 0
    ensures var o := ApplyCustomSize(t, widthText, heightText).value.options;
      |o| >= |t.options| && o[|o| - 1] == CustomOption
      && o[..|t.options| - 1] == t.options[..|t.options| - 1]
    ensures var value := FormatSize(ParseInt(widthText).value, ParseInt(heightText).value);
      value !in t.options ==>
        ApplyCustomSize(t, widthText, heightText).value.options == t.options[..|t.options| - 1] + [value, CustomOption]
  {
    var value := FormatSize(ParseInt(widthText).value, ParseInt(heightText).value);
    if value !in t.options {
      InsertBeforeLastShape(t.options, value);
    }
  }

  /** `on_mouse_move`: the rectangle, at the current size scaled and clamped
      to the display, follows the mouse inside the image. */
  function OnMouseMove(t: CropTool, mouseX: int, mouseY: int): (r: CropTool)
    requires Ready(t)
    ensures Ready(r)
    ensures r == t.(rect := r.rect)
    ensures t.rect.None? <==> r.rect.None?
    ensures t.rect.Some? && t.currentSize.width >= 0 && t.currentSize.height >= 0 ==>
      r.rect == Some(PlaceClamped(mouseX, mouseY, t.currentSize, t.display))
      && Inside(r.rect.value, t.display)
    ensures t.rect.Some? && t.display.scaledHeight <= t.display.scaledWidth ==>
      r.rect == Some(PlaceAsWritten(mouseX, mouseY, t.currentSize, t.display))
  {
    if t.rect.None? then t
    else
      var d := t.display;
      t.(rect := Some(Place(mouseX, mouseY, Clamp(Scaled(t.currentSize, d.scale), d), d)))
  }

  /** `on_mouse_wheel`: a turn grows or shrinks the shown size by 50 pixels
      a side, keeping the rectangle's top-left corner, unless the new size is
      too small or too large for the display. The saved size is not touched. */
  function OnMouseWheel(t: CropTool, delta: int): (r: CropTool)
    requires Ready(t)
    ensures Ready(r)
    ensures r.originalSize == t.originalSize
    ensures r == t.(rect := r.rect, currentSize := r.currentSize)
    ensures t.rect.None? || WheelResize(t.currentSize, delta, t.display).None? ==> r == t
    ensures t.rect.Some? && WheelResize(t.currentSize, delta, t.display).Some? ==>
      var n := WheelResize(t.currentSize, delta, t.display).value;
      && r.currentSize == n
      && r.rect.Some? && r.rect.value.x1 == t.rect.value.x1 && r.rect.value.y1 == t.rect.value.y1
      && r.rect.value.x2 - r.rect.value.x1 == ToDisplay(n.width, t.display.scale) <= t.display.scaledWidth
      && r.rect.value.y2 - r.rect.value.y1 == ToDisplay(n.height, t.display.scale) <= t.display.scaledHeight
  {
    if t.rect.None? then t
    else
      match WheelResize(t.currentSize, delta, t.display)
      case None => t
      case Some(n) =>
        var b := t.rect.value;
        var d := t.display;
        var box := Box(b.x1, b.y1, b.x1 + ToDisplay(n.width, d.scale), b.y1 + ToDisplay(n.height, d.scale));
        t.(rect := Some(box), currentSize := n)
  }

  /** A turn up that is accepted, then a turn down, restore the shown size
      and keep the rectangle's corner, as long as the size started at 50
      pixels a side or more. */
  lemma WheelUpThenDown(t: CropTool)
    requires Ready(t) && t.rect.Some?
    requires t.currentSize.width >= MinSide && t.currentSize.height >= MinSide
    requires WheelResize(t.currentSize, 1, t.display).Some?
    ensures var u := OnMouseWheel(OnMouseWheel(t, 1), -1);
      u.currentSize == t.currentSize
      && u.rect.value.x1 == t.rect.value.x1 && u.rect.value.y1 == t.rect.value.y1
  {
    var d := t.display;
    var n := WheelResize(t.currentSize, 1, d).value;
    ToDisplayMonotone(t.currentSize.width, n.width, d.scale);
    ToDisplayMonotone(t.currentSize.height, n.height, d.scale);
    assert WheelResize(n, -1, d) == Some(t.currentSize);
  }
}

=== FILE: crops_analysis.dfy ===
/** How the cropping window and the analyser meet: every crop the window
    writes carries a name the analyser's crops-only scan accepts. */
module CropsAnalysis {
  import opened Text
  import opened Seqs
  import Paths
  import opened Viewer
  import opened PrunerIQ
  import opened CropHistory

  /** A name made of the "cropped_" prefix, anything, and ".png" is
      recognised whatever letters the middle holds. */
  lemma PrefixSuffixLower(middle: string)
    ensures var name := CropNamePrefix + (middle + ".png");
      StartsWith(Lower(name), CropPrefix) && EndsWith(Lower(name), ".png")
  {
    var name := CropNamePrefix + (middle + ".png");
    LowerAppend(CropNamePrefix, middle + ".png");
    LowerAppend(middle, ".png");
    LowerFixed(CropNamePrefix);
    LowerFixed(".png");
    var lower := CropNamePrefix + (Lower(middle) + ".png");
    assert Lower(name) == lower;
    assert lower[..|CropPrefix|] == CropPrefix;
    assert lower[|lower| - 4..] == ".png";
  }

  lemma CropNameLower(counter: nat, imagePath: string)
    ensures var name := CropFileName(counter, imagePath);
      StartsWith(Lower(name), CropPrefix) && EndsWith(Lower(name), ".png")
  {
    AssembledLower(Decimal(counter), Paths.Stem(Paths.Basename(imagePath)));
  }

  lemma AssembledLower(digits: string, stem: string)
    ensures var name := CropNamePrefix + (digits + ['_'] + (stem + ".png"));
      StartsWith(Lower(name), CropPrefix) && EndsWith(Lower(name), ".png")
  {
    assert digits + ['_'] + (stem + ".png") == (digits + ['_'] + stem) + ".png";
    PrefixSuffixLower(digits + ['_'] + stem);
  }

  /** Every crop file name is picked up by the crops-only scan. */
  lemma CropNameSelected(counter: nat, imagePath: string)
    ensures Selected(CropFileName(counter, imagePath), true)
  {
    CropNameLower(counter, imagePath);
  }

  /** The shape of a crop name, whatever its digits and stem. */
  lemma AssembledShape(digits: string, stem: string)
    requires Paths.NoSeps(digits) && Paths.NoSeps(stem)
    ensures var name := CropNamePrefix + (digits + ['_'] + (stem + ".png"));
      Paths.NoSeps(name) && |name| >= 2 && name[0] == 'c' && name[1] == 'r'
  {
    Paths.NoSepsConcat(digits, ['_']);
    Paths.NoSepsConcat(stem, ".png");
    Paths.NoSepsConcat(digits + ['_'], stem + ".png");
    Paths.NoSepsConcat(CropNamePrefix, digits + ['_'] + (stem + ".png"));
  }

  lemma DigitsNoSeps(digits: string)
    requires AllDigits(digits)
    ensures Paths.NoSeps(digits)
  {
    assert forall i :: 0 <= i < |digits| ==> IsDigit(digits[i]);
  }

  /** A crop name has no separator and starts with "cr", so no drive colon. */
  lemma CropNameShape(counter: nat, imagePath: string)
    ensures var name := CropFileName(counter, imagePath);
      Paths.NoSeps(name) && |name| >= 2 && name[0] == 'c' && name[1] == 'r'
  {
    var digits := Decimal(counter);
    var stem := Paths.Stem(Paths.Basename(imagePath));
    Paths.StemNoSeps(Paths.Basename(imagePath));
    DigitsNoSeps(digits);
    AssembledShape(digits, stem);
  }

  /** A crop name is the base name of the path the crop is saved at. */
  lemma CropNameIsBasename(folder: string, counter: nat, imagePath: string)
    ensures Paths.Basename(Paths.Join(folder, CropFileName(counter, imagePath))) == CropFileName(counter, imagePath)
  {
    CropNameShape(counter, imagePath);
    Paths.BasenameOfJoin(folder, CropFileName(counter, imagePath));
  }

  /** After a successful crop, the newest recorded path is a file the
      analyser examines when it scans the output folder for crops. */
  lemma CropsAreAnalysed(g: Gallery, log: CropLog, picked: string, listing: seq<string>)
    requires OutputFor(log, g, picked) != "" && PyIndexValid(g.index, |g.images|)
    ensures var name := Paths.Basename(CropImage(g, log, picked).value.cropped[0]);
      Selected(name, true)
      && (name in listing ==> name in SelectFiles(listing, true))
  {
    var after := CropImage(g, log, picked).value;
    var image := g.images[PyIndex(g.index, |g.images|)];
    CropNameIsBasename(after.outputFolder, after.counter, image);
    var name := CropFileName(after.counter, image);
    CropNameSelected(after.counter, image);
    FilterMembership(listing, SelectedBy(true), name);
  }
}

=== FILE: navigation.dfy ===
/** Moving through the loaded images, deleting the one on screen, and the
    pane toggle (which re-centres the image by stepping forward and back). */
module Navigation {
  import opened Seqs
  import opened Viewer
  import Panes

  /** `load_next_image`: one step forward, wrapping from the last image to the first. */
  function NextImage(g: Gallery): (r: Outcome<Gallery>)
    ensures !HasInput(g) ==> r == Outcome(g, AskInputFolder)
    ensures HasInput(g) && |g.images| == 0 ==> r == Outcome(g, NoImagesLoaded)
    ensures |g.images| > 0 ==> r.notice == Quiet && r.value == g.(index := r.value.index)
    ensures |g.images| > 0 ==> 0 <= r.value.index < |g.images|
    ensures |g.images| > 0 && 0 <= g.index < |g.images| ==>
      r.value.index == if g.index == |g.images| - 1 then 0 else g.index + 1
  {
    if !HasInput(g) then Outcome(g, AskInputFolder)
    else if |g.images| == 0 then Outcome(g, NoImagesLoaded)
    // Python's `%` floors; for the positive length it agrees with Dafny's.
    else Outcome(g.(index := (g.index + 1) % |g.images|), Quiet)
  }

  /** `load_previous_image`: one step back, wrapping from the first image to the last. */
  function PreviousImage(g: Gallery): (r: Outcome<Gallery>)
    ensures !HasInput(g) ==> r == Outcome(g, AskInputFolder)
    ensures HasInput(g) && |g.images| == 0 ==> r == Outcome(g, NoImagesLoaded)
    ensures |g.images| > 0 ==> r.notice == Quiet && r.value == g.(index := r.value.index)
    ensures |g.images| > 0 ==> 0 <= r.value.index < |g.images|
    ensures |g.images| > 0 && 0 <= g.index < |g.images| ==>
      r.value.index == if g.index == 0 then |g.images| - 1 else g.index - 1
  {
    if !HasInput(g) then Outcome(g, AskInputFolder)
    else if |g.images| == 0 then Outcome(g, NoImagesLoaded)
    else Outcome(g.(index := (g.index - 1) % |g.images|), Quiet)
  }

  /** Forward then back (and back then forward) returns to the same image. */
  lemma NextThenPrevious(g: Gallery)
    requires 0 <= g.index < |g.images|
    ensures PreviousImage(NextImage(g).value).value == g
    ensures NextImage(PreviousImage(g).value).value == g
  {
  }

  /** `k` forward steps, as auto-advance takes them. */
  function Advance(g: Gallery, k: nat): Gallery {
    if k == 0 then g else NextImage(Advance(g, k - 1)).value
  }

  /** After `k` forward steps the index has moved `k` places round the list;
      after as many steps as there are images it is back where it started. */
  lemma {:induction false} AdvanceWraps(g: Gallery, k: nat)
    requires 0 <= g.index < |g.images|
    ensures Advance(g, k) == g.(index := (g.index + k) % |g.images|)
  {
    if k > 0 {
      AdvanceWraps(g, k - 1);
      var n := |g.images|;
      var i := (g.index + k - 1) % n;
      NextFrom(g, i);
      ModSucc(g.index + k - 1, n);
    }
  }

  lemma NextFrom(g: Gallery, i: int)
    requires |g.images| > 0
    ensures NextImage(g.(index := i)).value == g.(index := (i + 1) % |g.images|)
  {
  }

  /** Dafny's `%` is determined by the division equation with a remainder in range. */
  lemma DivModUnique(a: int, n: int, k: int, r: int)
    requires n > 0 && 0 <= r < n && a == k * n + r
    ensures a % n == r
  {
    var q := a / n;
    var m := a % n;
    assert (q - k) * n == r - m;
    MulSign(q - k, n);
  }

  lemma MulSign(x: int, n: int)
    requires n > 0
    ensures x >= 1 ==> x * n >= n
    ensures x <= -1 ==> x * n <= -n
  {
    if x >= 1 {
      assert x * n == (x - 1) * n + n;
    } else if x <= -1 {
      assert x * n == (x + 1) * n - n;
    }
  }

  lemma ModSucc(a: int, n: int)
    requires n > 0
    ensures (a % n + 1) % n == (a + 1) % n
  {
    var q := a / n;
    var r := a % n;
    assert a == q * n + r;
    if r + 1 < n {
      DivModUnique(a + 1, n, q, r + 1);
      DivModUnique(r + 1, n, 0, r + 1);
    } else {
      assert a + 1 == (q + 1) * n + 0;
      DivModUnique(a + 1, n, q + 1, 0);
      DivModUnique(r + 1, n, 1, 0);
    }
  }

  lemma AdvanceFullCircle(g: Gallery)
    requires 0 <= g.index < |g.images|
    ensures Advance(g, |g.images|) == g
  {
    AdvanceWraps(g, |g.images|);
    DivModUnique(g.index + |g.images|, |g.images|, 1, g.index);
  }

  /** `delete_current_image`, given the answer to the confirmation dialog:
      the image on screen is removed from the list and the index falls back
      to 0 when it was the last one. Python's `pop` accepts negative indices
      and raises on an index out of range, which leaves the list untouched. */
  function DeleteCurrentImage(g: Gallery, safeMode: bool, confirmed: bool): (r: Outcome<Gallery>)
    ensures safeMode ==> r == Outcome(g, SafeModeBlocked)
    ensures !safeMode && !HasInput(g) ==> r == Outcome(g, AskInputFolder)
    ensures !safeMode && HasInput(g) && !confirmed ==> r == Outcome(g, Quiet)
    ensures !safeMode && HasInput(g) && confirmed && !PyIndexValid(g.index, |g.images|) ==> r == Outcome(g, Crashed)
    ensures !safeMode && HasInput(g) && confirmed && PyIndexValid(g.index, |g.images|) ==>
      && r.notice == (if g.folderPath == "" && |g.images| == 1 then SelectInputFolder else Quiet)
      && var p := PyIndex(g.index, |g.images|);
      && r.value.folderPath == g.folderPath
      && r.value.images == g.images[..p] + g.images[p + 1..]
      && multiset(r.value.images) + multiset{g.images[p]} == multiset(g.images)
      && r.value.index == (if g.index >= |g.images| - 1 then 0 else g.index)
    ensures !safeMode && HasInput(g) && confirmed && 0 <= g.index < |g.images| - 1 ==>
      0 <= r.value.index < |r.value.images| && r.value.images[r.value.index] == g.images[g.index + 1]
  {
    if safeMode then Outcome(g, SafeModeBlocked)
    else if !HasInput(g) then Outcome(g, AskInputFolder)
    else if !confirmed then Outcome(g, Quiet)
    else if !PyIndexValid(g.index, |g.images|) then Outcome(g, Crashed)
    else
      var remaining := RemoveAt(g.images, PyIndex(g.index, |g.images|));
      var index := if g.index >= |remaining| then 0 else g.index;
      var notice := if g.folderPath == "" && |remaining| == 0 then SelectInputFolder else Quiet;
      Outcome(Gallery(g.folderPath, remaining, index), notice)
  }

  /** Deleting the only image of a list dragged in without an input folder
      empties the list, and the reload that follows asks for a folder. */
  lemma DeleteOnlyDraggedImage(x: string)
    ensures DeleteCurrentImage(Gallery("", [x], 0), false, true) == Outcome(Gallery("", [], 0), SelectInputFolder)
  {
    assert [x][..0] + [x][1..] == [];
  }

  /** Deleting keeps a valid index valid as long as an image remains, and
      the image shown next is the one that followed the deleted image, or the
      first image when the last one was deleted. */
  lemma DeleteKeepsIndexValid(g: Gallery)
    requires HasInput(g) && 0 <= g.index < |g.images| && |g.images| > 1
    ensures var r := DeleteCurrentImage(g, false, true).value;
      && |r.images| == |g.images| - 1
      && 0 <= r.index < |r.images|
      && r.images[r.index] == (if g.index == |g.images| - 1 then g.images[0] else g.images[g.index + 1])
  {
  }

  /** `toggle_pane`: flips the named pane (see `Panes.Toggle`) and then, as a
      re-centring workaround, steps to the next image and back to the
      previous one. */
  function TogglePane(g: Gallery, flags: Panes.Flags, name: string): (r: Outcome<(Panes.Flags, Gallery)>)
    ensures !HasInput(g) ==> r == Outcome((flags, g), AskInputFolder)
    ensures HasInput(g) ==> r.value.0 == Panes.Toggle(flags, name)
    ensures 0 <= g.index < |g.images| ==> r == Outcome((Panes.Toggle(flags, name), g), Quiet)
  {
    if !HasInput(g) then Outcome((flags, g), AskInputFolder)
    else
      var forward := NextImage(g);
      var back := PreviousImage(forward.value);
      Outcome((Panes.Toggle(flags, name), back.value), back.notice)
  }
}

=== FILE: panes.dfy ===
/** The three mutually exclusive side panes of the cropping window
    (live preview, crop thumbnails, source thumbnails) and the toggle rule
    that switches between them. */
module Panes {
  import opened Wrappers

  datatype Pane = Preview | Crops | Source

  /** The `preview_enabled`, `crops_enabled` and `source_enabled` flags. */
  datatype Flags = Flags(preview: bool, crops: bool, source: bool)

  const AllOff: Flags := Flags(false, false, false)

  /** The pane a menu command names, if it names one. */
  function PaneNamed(name: string): Option<Pane> {
    if name == "preview" then Some(Preview)
    else if name == "crops" then Some(Crops)
    else if name == "source" then Some(Source)
    else None
  }

  function Enabled(f: Flags, p: Pane): bool {
    match p
    case Preview => f.preview
    case Crops => f.crops
    case Source => f.source
  }

  predicate AtMostOne(f: Flags) {
    !(f.preview && f.crops) && !(f.preview && f.source) && !(f.crops && f.source)
  }

  /** Flips the named pane and switches the other two off; an unknown name
      changes nothing. */
  function Toggle(f: Flags, name: string): (g: Flags)
    ensures PaneNamed(name).None? ==> g == f
    ensures PaneNamed(name).Some? ==> AtMostOne(g)
    ensures PaneNamed(name).Some? ==>
      forall p: Pane :: Enabled(g, p) == (p == PaneNamed(name).value && !Enabled(f, p))
  {
    if name == "preview" then Flags(!f.preview, false, false)
    else if name == "crops" then Flags(false, !f.crops, false)
    else if name == "source" then Flags(false, false, !f.source)
    else f
  }

  /** The pane the window lays out after a toggle: the first enabled one in
      the order preview, crops, source, or none. */
  function Shown(f: Flags): (shown: Option<Pane>)
    ensures AtMostOne(f) ==> forall p: Pane :: shown == Some(p) <==> Enabled(f, p)
    ensures shown.None? <==> f == AllOff
  {
    if f.preview then Some(Preview)
    else if f.crops then Some(Crops)
    else if f.source then Some(Source)
    else None
  }

  /** Toggling the same pane twice restores the flags, provided no other pane
      was on to begin with; in particular from the all-off state. */
  lemma ToggleTwice(f: Flags, name: string)
    requires PaneNamed(name).Some?
    requires forall p: Pane :: Enabled(f, p) ==> p == PaneNamed(name).value
    ensures Toggle(Toggle(f, name), name) == f
  {
    assert Enabled(f, Preview) == f.preview && Enabled(f, Crops) == f.crops && Enabled(f, Source) == f.source;
  }

  lemma ToggleTwiceFromAllOff(name: string)
    ensures Toggle(Toggle(AllOff, name), name) == AllOff
  {
  }
}

=== FILE: paths.dfy ===
/** The Windows path functions (`ntpath`) the program calls: `basename`,
    `join` of a folder with a plain file name, and the root part of `splitext`. */
module Paths {
  import opened Wrappers

  predicate IsSep(c: char) {
    c == '/' || c == '\\'
  }

  predicate NoSeps(s: string) {
    forall i :: 0 <= i < |s| ==> !IsSep(s[i])
  }

  lemma NoSepsConcat(a: string, b: string)
    requires NoSeps(a) && NoSeps(b)
    ensures NoSeps(a + b)
  {
    assert forall i :: |a| <= i < |a + b| ==> (a + b)[i] == b[i - |a|];
  }

  /** `splitdrive`: a drive prefix such as `C:` is two characters with a
      colon second; the rest of the path follows it. */
  function StripDrive(p: string): string {
    if |p| >= 2 && p[1] == ':' then p[2..] else p
  }

  /** The text after the last separator: the longest suffix of `p` without
      one, so whatever precedes it is a separator. */
  function AfterLastSep(p: string): (tail: string)
    ensures NoSeps(tail)
    ensures |tail| <= |p| && tail == p[|p| - |tail|..]
    decreases |p|
  {
    if |p| == 0 || IsSep(p[|p| - 1]) then ""
    else AfterLastSep(p[..|p| - 1]) + [p[|p| - 1]]
  }

  /** The suffix `AfterLastSep` keeps is the longest one: it is the whole
      path or the character before it is a separator. */
  lemma {:induction false} AfterLastSepLongest(p: string)
    ensures var tail := AfterLastSep(p); |tail| < |p| ==> IsSep(p[|p| - |tail| - 1])
    decreases |p|
  {
    if |p| > 0 && !IsSep(p[|p| - 1]) {
      var front := p[..|p| - 1];
      var rest := AfterLastSep(front);
      AfterLastSepLongest(front);
      assert AfterLastSep(p) == rest + [p[|p| - 1]];
      if |rest| < |front| {
        var k := |front| - |rest| - 1;
        assert p[k] == front[k];
      }
    }
  }

  /** `os.path.basename(p)` on Windows. */
  function Basename(p: string): (name: string)
    ensures NoSeps(name)
    ensures var rest := StripDrive(p);
      |name| <= |rest| && name == rest[|rest| - |name|..]
      && (|name| < |rest| ==> IsSep(rest[|rest| - |name| - 1]))
  {
    AfterLastSepLongest(StripDrive(p));
    AfterLastSep(StripDrive(p))
  }

  /** `os.path.join(folder, name)` on Windows for a relative `name` without a drive:
      a backslash is inserted unless the folder (after its drive) is empty or
      already ends with a separator. */
  function Join(folder: string, name: string): (j: string)
    ensures |folder| + |name| <= |j| <= |folder| + |name| + 1
    ensures j[..|folder|] == folder && j[|j| - |name|..] == name
    ensures |j| > |folder| + |name| ==> j[|folder|] == '\\'
    ensures |j| == |folder| + |name| <==> |StripDrive(folder)| == 0 || IsSep(folder[|folder| - 1])
    ensures |j| == |folder| + |name| ==> j == folder + name
  {
    var rest := StripDrive(folder);
    if |rest| > 0 && !IsSep(rest[|rest| - 1]) then folder + "\\" + name else folder + name
  }

  lemma {:induction false} AfterLastSepAppend(a: string, b: string)
    requires NoSeps(b)
    ensures AfterLastSep(a + b) == AfterLastSep(a) + b
    decreases |b|
  {
    if |b| == 0 {
      assert a + b == a;
    } else {
      assert (a + b)[..|a + b| - 1] == a + b[..|b| - 1];
      AfterLastSepAppend(a, b[..|b| - 1]);
      assert b[..|b| - 1] + [b[|b| - 1]] == b;
    }
  }

  /** The separator `Join` puts between a folder and a name. */
  function JoinSep(folder: string): (sep: string)
    ensures var before := StripDrive(folder) + sep; |before| == 0 || IsSep(before[|before| - 1])
  {
    var rest := StripDrive(folder);
    if |rest| > 0 && !IsSep(rest[|rest| - 1]) then "\\" else ""
  }

  lemma JoinIsConcat(folder: string, name: string)
    ensures Join(folder, name) == folder + JoinSep(folder) + name
  {
    var rest := StripDrive(folder);
    if |rest| > 0 && !IsSep(rest[|rest| - 1]) {
      assert JoinSep(folder) == "\\";
    } else {
      assert JoinSep(folder) == "";
    }
  }

  lemma StripDriveOfJoin(folder: string, name: string)
    requires |name| >= 1 ==> name[0] != ':'
    requires |name| >= 2 ==> name[1] != ':'
    ensures StripDrive(folder + JoinSep(folder) + name) == StripDrive(folder) + JoinSep(folder) + name
  {
    var mid := JoinSep(folder);
    var j := folder + mid + name;
    if |folder| >= 2 {
      assert j[1] == folder[1];
      if folder[1] == ':' {
        assert j[2..] == folder[2..] + mid + name;
      }
    } else if |folder| == 1 {
      if |j| >= 2 {
        assert j[1] == if mid == "" then name[0] else '\\';
      }
    } else {
      assert j == name;
    }
  }

  /** Joining a plain file name onto any folder and taking the basename gives
      the name back: what `os.listdir` later reports for a file written to
      `os.path.join(folder, name)`. */
  lemma BasenameOfJoin(folder: string, name: string)
    requires NoSeps(name)
    requires |name| >= 1 ==> name[0] != ':'
    requires |name| >= 2 ==> name[1] != ':'
    ensures Basename(Join(folder, name)) == name
  {
    JoinIsConcat(folder, name);
    StripDriveOfJoin(folder, name);
    var before := StripDrive(folder) + JoinSep(folder);
    AfterLastSepAppend(before, name);
  }

  /** The position of the last `c` in `s`, if any. */
  function LastIndexOf(s: string, c: char): (r: Option<nat>)
    ensures r.Some? ==> r.value < |s| && s[r.value] == c
    ensures r.Some? ==> forall i :: r.value < i < |s| ==> s[i] != c
    ensures r.None? ==> c !in s
    decreases |s|
  {
    if |s| == 0 then None
    else if s[|s| - 1] == c then Some(|s| - 1)
    else LastIndexOf(s[..|s| - 1], c)
  }

  /** The root returned by `os.path.splitext(name)` for a name without
      separators: the text before the last dot, unless only dots precede it
      (a leading-dot name such as `.hidden` has no extension). */
  function Stem(name: string): (root: string)
    ensures root <= name
    ensures root != name ==>
      && name[|root|] == '.'
      && (forall j :: |root| < j < |name| ==> name[j] != '.')
      && (exists i :: 0 <= i < |root| && root[i] != '.')
    ensures root == name ==>
      '.' !in name || forall i :: 0 <= i < LastIndexOf(name, '.').value ==> name[i] == '.'
  {
    match LastIndexOf(name, '.')
    case None => name
    case Some(dot) =>
      if exists i :: 0 <= i < dot && name[i] != '.' then name[..dot] else name
  }

  /** The root of a name without separators has none either. */
  lemma StemNoSeps(name: string)
    requires NoSeps(name)
    ensures NoSeps(Stem(name))
  {
    var root := Stem(name);
    assert forall i :: 0 <= i < |root| ==> root[i] == name[i];
  }
}

=== FILE: prune_iq.dfy ===
/** PrunerIQ: threshold-relative scoring of three image metrics (contrast,
    clarity, noise), the coarse Poor..Excellent rating with its reason text,
    and the folder scan that analyses every selected image in listing order.
    The metric extraction itself (OpenCV/NumPy over pixel data) is a
    parameter: a function from image path to the three raw values. */
module PrunerIQ {
  import opened Text
  import opened Seqs
  import Paths

  // ------------------------------------------------------------ thresholds

  /** Contrast (standard deviation of intensities) at or above this passes. */
  const ContrastThreshold: real := 70.0
  /** Clarity (variance of the Laplacian) at or above this passes. */
  const ClarityThreshold: real := 200.0
  /** Noise (variance of the blur residual) at or below this passes. */
  const NoiseThreshold: real := 15000.0

  // --------------------------------------------------------------- scoring

  /** `max(0.0, min(x, 1.0))`. */
  function Clamp01(x: real): (r: real)
    ensures 0.0 <= r <= 1.0
    ensures 0.0 <= x <= 1.0 ==> r == x
  {
    if x < 0.0 then 0.0 else if x > 1.0 then 1.0 else x
  }

  /** A 0-100 score for `value` relative to `threshold`: the ratio clamped to
      [0, 1], scaled by 100, complemented first when lower is better. */
  function ScaleScore(value: real, threshold: real, reverse: bool): (score: real)
    requires threshold != 0.0
    ensures 0.0 <= score <= 100.0
    ensures threshold > 0.0 && value >= threshold ==> score == (if reverse then 0.0 else 100.0)
    ensures threshold > 0.0 && value <= 0.0 ==> score == (if reverse then 100.0 else 0.0)
    ensures threshold > 0.0 && 0.0 < value < threshold ==> 0.0 < score < 100.0
    ensures threshold > 0.0 && 0.0 <= value <= threshold ==>
      score * threshold == 100.0 * (if reverse then threshold - value else value)
  {
    var ratio := Clamp01(value / threshold);
    assert threshold > 0.0 && value >= threshold ==> value / threshold >= 1.0;
    assert (value / threshold) * threshold == value;
    assert threshold > 0.0 && 0.0 < value < threshold ==> 0.0 < value / threshold < 1.0;
    (if reverse then 1.0 - ratio else ratio) * 100.0
  }

  /** The normal and the reverse score of the same value always add up to 100. */
  lemma ScaleScoreComplement(value: real, threshold: real)
    requires threshold != 0.0
    ensures ScaleScore(value, threshold, false) + ScaleScore(value, threshold, true) == 100.0
  {
  }

  /** With a positive threshold the normal score never decreases as the value
      grows, and the reverse score never increases. */
  lemma ScaleScoreMonotone(v1: real, v2: real, threshold: real)
    requires threshold > 0.0 && v1 <= v2
    ensures ScaleScore(v1, threshold, false) <= ScaleScore(v2, threshold, false)
    ensures ScaleScore(v1, threshold, true) >= ScaleScore(v2, threshold, true)
  {
    assert v1 / threshold <= v2 / threshold by {
      assert v2 / threshold - v1 / threshold == (v2 - v1) / threshold;
    }
  }

  // ---------------------------------------------------------------- rating

  datatype Metric = Contrast | Clarity | Noise

  /** The fixed order in which failing metrics are reported. */
  const MetricOrder: seq<Metric> := [Contrast, Clarity, Noise]

  /** The three raw measurements of one image. */
  datatype Metrics = Metrics(contrast: real, clarity: real, noise: real)

  predicate Passes(m: Metrics, k: Metric) {
    match k
    case Contrast => m.contrast >= ContrastThreshold
    case Clarity => m.clarity >= ClarityThreshold
    case Noise => m.noise <= NoiseThreshold
  }

  function Phrase(k: Metric): string {
    match k
    case Contrast => "low contrast"
    case Clarity => "low clarity"
    case Noise => "high noise"
  }

  function PassesOf(m: Metrics): Metric -> bool {
    k => Passes(m, k)
  }

  function FailsOf(m: Metrics): Metric -> bool {
    k => !Passes(m, k)
  }

  /** The metrics `m` fails, in reporting order. */
  function Failing(m: Metrics): seq<Metric> {
    Filter(MetricOrder, FailsOf(m))
  }

  /** The metrics `m` passes, in reporting order. */
  function Passing(m: Metrics): seq<Metric> {
    Filter(MetricOrder, PassesOf(m))
  }

  function Phrases(ks: seq<Metric>): (ps: seq<string>)
    ensures |ps| == |ks|
    ensures forall i :: 0 <= i < |ks| ==> ps[i] == Phrase(ks[i])
  {
    seq(|ks|, i requires 0 <= i < |ks| => Phrase(ks[i]))
  }

  datatype Rating = Poor | Fair | Good | Excellent

  /** The rating's position on the scale, equal to the number of passed thresholds. */
  function Rank(r: Rating): nat {
    match r
    case Poor => 0
    case Fair => 1
    case Good => 2
    case Excellent => 3
  }

  function RatingName(r: Rating): string {
    match r
    case Poor => "Poor"
    case Fair => "Fair"
    case Good => "Good"
    case Excellent => "Excellent"
  }

  /** The table `{3: "Excellent", 2: "Good", 1: "Fair", 0: "Poor"}`. */
  function RatingOfScore(score: nat): (r: Rating)
    requires score <= 3
    ensures Rank(r) == score
  {
    if score == 3 then Excellent else if score == 2 then Good else if score == 1 then Fair else Poor
  }

  const MeetsAllThresholds: string := "meets all thresholds"
  const ReasonSeparator: string := ", "

  datatype Assessment = Assessment(rating: Rating, reason: string)

  function Keep(b: bool, k: Metric): seq<Metric> {
    if b then [k] else []
  }

  /** Filtering the three metrics keeps each one on its own. */
  lemma FilterMetricOrder(keep: Metric -> bool)
    ensures Filter(MetricOrder, keep) == Keep(keep(Contrast), Contrast) + Keep(keep(Clarity), Clarity) + Keep(keep(Noise), Noise)
  {
    assert MetricOrder[1..] == [Clarity, Noise];
    assert MetricOrder[1..][1..] == [Noise];
    assert MetricOrder[1..][1..][1..] == [];
  }

  /** Rates an image by the number of thresholds it meets and explains the
      rating by the failing metrics. */
  function RateImage(m: Metrics): (a: Assessment)
    ensures Rank(a.rating) == |Passing(m)|
    ensures Rank(a.rating) == 3 - |Failing(m)|
    ensures a.reason == MeetsAllThresholds <==> a.rating == Excellent
    ensures a.rating == Excellent <==> forall k :: Passes(m, k)
    ensures a.rating == Poor <==> forall k :: !Passes(m, k)
    ensures a.rating != Excellent ==> a.reason == Join(Phrases(Failing(m)), ReasonSeparator)
  {
    var c := m.contrast >= ContrastThreshold;
    var l := m.clarity >= ClarityThreshold;
    var n := m.noise <= NoiseThreshold;
    var score := (if c then 1 else 0) + (if l then 1 else 0) + (if n then 1 else 0);
    var reasons := (if c then [] else ["low contrast"])
      + (if l then [] else ["low clarity"])
      + (if n then [] else ["high noise"]);
    FilterMetricOrder(PassesOf(m));
    FilterMetricOrder(FailsOf(m));
    assert |Passing(m)| == score;
    assert |Failing(m)| == 3 - score;
    assert reasons == Phrases(Failing(m));
    assert (forall k :: Passes(m, k)) <==> c && l && n by {
      assert Passes(m, Contrast) == c && Passes(m, Clarity) == l && Passes(m, Noise) == n;
    }
    assert (forall k :: !Passes(m, k)) <==> !c && !l && !n by {
      assert Passes(m, Contrast) == c && Passes(m, Clarity) == l && Passes(m, Noise) == n;
    }
    if |reasons| == 0 then
      Assessment(RatingOfScore(score), MeetsAllThresholds)
    else
      var reason := Join(reasons, ReasonSeparator);
      JoinStartsWithFirst(reasons, ReasonSeparator);
      assert reason[0] == reasons[0][0] != MeetsAllThresholds[0];
      Assessment(RatingOfScore(score), reason)
  }

  /** The length of the reason text for each combination of passes: the
      failing phrases and a two-character separator between each pair, or the
      "meets all thresholds" text. The eight values are distinct. */
  function ReasonLength(c: bool, l: bool, n: bool): nat {
    var failed := (if c then 0 else 1) + (if l then 0 else 1) + (if n then 0 else 1);
    if failed == 0 then |MeetsAllThresholds|
    else
      (if c then 0 else |Phrase(Contrast)|) + (if l then 0 else |Phrase(Clarity)|)
      + (if n then 0 else |Phrase(Noise)|) + |ReasonSeparator| * (failed - 1)
  }

  lemma {:induction false} ReasonLengthOf(m: Metrics)
    ensures |RateImage(m).reason| == ReasonLength(Passes(m, Contrast), Passes(m, Clarity), Passes(m, Noise))
  {
    var c, l, n := Passes(m, Contrast), Passes(m, Clarity), Passes(m, Noise);
    FilterMetricOrder(FailsOf(m));
    var fs := Failing(m);
    assert fs == Keep(!c, Contrast) + Keep(!l, Clarity) + Keep(!n, Noise);
    if !(c && l && n) {
      var ps := Phrases(fs);
      if |fs| == 1 {
        JoinOne(ps);
      } else if |fs| == 2 {
        JoinTwo(ps);
      } else {
        JoinThree(ps);
      }
    }
  }

  lemma JoinOne(ps: seq<string>)
    requires |ps| == 1
    ensures |Join(ps, ReasonSeparator)| == |ps[0]|
  {
  }

  lemma JoinTwo(ps: seq<string>)
    requires |ps| == 2
    ensures |Join(ps, ReasonSeparator)| == |ps[0]| + 2 + |ps[1]|
  {
    assert Join(ps[1..], ReasonSeparator) == ps[1];
  }

  lemma JoinThree(ps: seq<string>)
    requires |ps| == 3
    ensures |Join(ps, ReasonSeparator)| == |ps[0]| + 2 + |ps[1]| + 2 + |ps[2]|
  {
    JoinTwo(ps[1..]);
  }

  /** The reason text identifies exactly which metrics failed, and hence the rating. */
  lemma ReasonDeterminesVerdict(m1: Metrics, m2: Metrics)
    requires RateImage(m1).reason == RateImage(m2).reason
    ensures Failing(m1) == Failing(m2)
    ensures forall k :: Passes(m1, k) == Passes(m2, k)
    ensures RateImage(m1).rating == RateImage(m2).rating
  {
    ReasonLengthOf(m1);
    ReasonLengthOf(m2);
    assert Passes(m1, Contrast) == Passes(m2, Contrast);
    assert Passes(m1, Clarity) == Passes(m2, Clarity);
    assert Passes(m1, Noise) == Passes(m2, Noise);
    FilterMetricOrder(FailsOf(m1));
    FilterMetricOrder(FailsOf(m2));
  }

  /** All three boundaries are inclusive: metrics exactly at the thresholds rate Excellent. */
  lemma BoundariesInclusive()
    ensures RateImage(Metrics(ContrastThreshold, ClarityThreshold, NoiseThreshold)).rating == Excellent
  {
  }

  /** A flat grey image (all metrics zero) only meets the noise threshold. */
  lemma UniformGreyIsFair()
    ensures RateImage(Metrics(0.0, 0.0, 0.0)) == Assessment(Fair, "low contrast, low clarity")
  {
    var m := Metrics(0.0, 0.0, 0.0);
    FilterMetricOrder(FailsOf(m));
    assert Failing(m) == [Contrast, Clarity];
    var ps := Phrases(Failing(m));
    assert ps == ["low contrast", "low clarity"];
    assert Join(ps[1..], ReasonSeparator) == "low clarity";
  }

  // -------------------------------------------------------- analyse one image

  /** The record `analyze_image` returns for one file. */
  datatype MetricResult = MetricResult(
    filename: string,
    contrast: real, contrastPct: real,
    clarity: real, clarityPct: real,
    noise: real, noisePct: real,
    aesthetic: real,
    rating: Rating, reason: string)

  function Value(r: MetricResult, k: Metric): real {
    match k
    case Contrast => r.contrast
    case Clarity => r.clarity
    case Noise => r.noise
  }

  /** Assembles the result record for the image at `path` whose measurements are `m`. */
  function AnalyzeImage(path: string, m: Metrics): (r: MetricResult)
    ensures r.filename == Paths.Basename(path)
    ensures r.contrast == m.contrast && r.clarity == m.clarity && r.noise == m.noise
    ensures 0.0 <= r.contrastPct <= 100.0 && 0.0 <= r.clarityPct <= 100.0 && 0.0 <= r.noisePct <= 100.0
    ensures r.contrastPct == 100.0 <==> Passes(m, Contrast)
    ensures r.clarityPct == 100.0 <==> Passes(m, Clarity)
    ensures r.noisePct == 0.0 <==> m.noise >= NoiseThreshold
    ensures r.noisePct > 0.0 ==> Passes(m, Noise)
    ensures r.aesthetic == 0.0
    ensures r.contrastPct == ScaleScore(m.contrast, ContrastThreshold, false)
    ensures r.clarityPct == ScaleScore(m.clarity, ClarityThreshold, false)
    ensures r.noisePct == ScaleScore(m.noise, NoiseThreshold, true)
    ensures Assessment(r.rating, r.reason) == RateImage(m)
  {
    var a := RateImage(m);
    MetricResult(
      Paths.Basename(path),
      m.contrast, ScaleScore(m.contrast, ContrastThreshold, false),
      m.clarity, ScaleScore(m.clarity, ClarityThreshold, false),
      m.noise, ScaleScore(m.noise, NoiseThreshold, true),
      0.0,
      a.rating, a.reason)
  }

  // ------------------------------------------------------------ folder scan

  const CropPrefix: string := "cropped_"

  /** Case-insensitive test for the supported raster extensions. */
  predicate HasImageExtension(name: string) {
    var lower := Lower(name);
    EndsWith(lower, ".png") || EndsWith(lower, ".jpg") || EndsWith(lower, ".jpeg") || EndsWith(lower, ".webp")
  }

  /** Case-insensitive test for the prefix of files the cropper wrote. */
  predicate IsCropName(name: string) {
    StartsWith(Lower(name), CropPrefix)
  }

  /** Whether the folder scan analyses a listed file. */
  predicate Selected(name: string, cropsOnly: bool): (b: bool)
    ensures cropsOnly ==> (b <==> Selected(name, false) && IsCropName(name))
    ensures !cropsOnly ==> (b <==> HasImageExtension(name))
    decreases if cropsOnly then 1 else 0
  {
    (!cropsOnly || IsCropName(name)) && HasImageExtension(name)
  }

  /** The selection looks at the lower-cased name only, so changing the
      case of a name never changes whether it is analysed. */
  lemma SelectedIgnoresCase(name: string, cropsOnly: bool)
    ensures Selected(name, cropsOnly) == Selected(Lower(name), cropsOnly)
  {
    LowerIdempotent(name);
  }

  function SelectedBy(cropsOnly: bool): string -> bool {
    name => Selected(name, cropsOnly)
  }

  /** The files the scan analyses, in listing order. */
  function SelectFiles(listing: seq<string>, cropsOnly: bool): seq<string> {
    Filter(listing, SelectedBy(cropsOnly))
  }

  /** Restricting to crops only narrows the selection: the crops-only files
      are exactly the crop-named files of the full selection, in the same order. */
  lemma CropsOnlyNarrows(listing: seq<string>)
    ensures SelectFiles(listing, true) == Filter(SelectFiles(listing, false), IsCropName)
    ensures IsSubseq(SelectFiles(listing, true), SelectFiles(listing, false))
  {
    FilterConjunction(listing, IsCropName, SelectedBy(false), SelectedBy(true));
    FilterIsSubseq(SelectFiles(listing, false), IsCropName);
  }

  /** The list comprehension that picks the files to analyse. */
  method ListImages(listing: seq<string>, cropsOnly: bool) returns (files: seq<string>)
    ensures files == SelectFiles(listing, cropsOnly)
  {
    files := [];
    var j := 0;
    while j < |listing|
      invariant 0 <= j <= |listing|
      invariant files == SelectFiles(listing[..j], cropsOnly)
    {
      assert listing[..j + 1] == listing[..j] + [listing[j]];
      FilterSnoc(listing[..j], listing[j], SelectedBy(cropsOnly));
      if Selected(listing[j], cropsOnly) {
        files := files + [listing[j]];
      }
      j := j + 1;
    }
    assert listing[..j] == listing;
  }

  /** The result the scan records for a selected file. */
  function ResultFor(folder: string, file: string, measure: string -> Metrics): MetricResult {
    var path := Paths.Join(folder, file);
    AnalyzeImage(path, measure(path))
  }

  /** The per-file loop of the scan: analyses `files` in order with
      `analyze` and reports `(index, total)` after each one when
      `reportProgress` holds. */
  method ScanFiles<R>(files: seq<string>, analyze: string -> R, reportProgress: bool)
    returns (results: seq<R>, progress: seq<(int, int)>)
    ensures |results| == |files|
    ensures forall i :: 0 <= i < |files| ==> results[i] == analyze(files[i])
    ensures reportProgress ==> |progress| == |files|
    ensures reportProgress ==> forall i :: 0 <= i < |progress| ==> progress[i] == (i + 1, |files|)
    ensures !reportProgress ==> progress == []
  {
    var total := |files|;
    results := [];
    progress := [];
    var idx := 1;
    while idx <= total
      invariant 1 <= idx <= total + 1
      invariant |results| == idx - 1
      invariant forall i :: 0 <= i < |results| ==> results[i] == analyze(files[i])
      invariant reportProgress ==> |progress| == idx - 1
      invariant reportProgress ==> forall i :: 0 <= i < |progress| ==> progress[i] == (i + 1, total)
      invariant !reportProgress ==> progress == []
    {
      var result := analyze(files[idx - 1]);
      results := results + [result];
      if reportProgress {
        progress := progress + [(idx, total)];
      }
      idx := idx + 1;
    }
  }

  function Analyzer(folder: string, measure: string -> Metrics): string -> MetricResult {
    file => ResultFor(folder, file, measure)
  }

  /** Analyses every selected file of `listing` (the folder's directory
      listing) in order. `measure` stands for the metric extraction on the
      joined path; `reportProgress` says whether a progress callback was
      given, and `progress` lists the `(index, total)` pairs it receives. */
  method AnalyzeFolder(folder: string, listing: seq<string>, cropsOnly: bool,
                       measure: string -> Metrics, reportProgress: bool)
    returns (results: seq<MetricResult>, progress: seq<(int, int)>)
    ensures |results| == |SelectFiles(listing, cropsOnly)|
    ensures forall i :: 0 <= i < |results| ==>
      results[i] == Analyzer(folder, measure)(SelectFiles(listing, cropsOnly)[i])
    ensures reportProgress ==> |progress| == |results|
    ensures reportProgress ==> forall i :: 0 <= i < |progress| ==> progress[i] == (i + 1, |results|)
    ensures !reportProgress ==> progress == []
  {
    var files := ListImages(listing, cropsOnly);
    results, progress := ScanFiles(files, Analyzer(folder, measure), reportProgress);
  }

  /** An empty or image-free folder yields no results and no progress reports. */
  lemma NoImagesNoResults(listing: seq<string>, cropsOnly: bool)
    requires forall i :: 0 <= i < |listing| ==> !Selected(listing[i], cropsOnly)
    ensures SelectFiles(listing, cropsOnly) == []
  {
    FilterKeepsNone(listing, SelectedBy(cropsOnly));
  }

  /** With crops only, `a.png` is skipped and `cropped_a.png` is analysed. */
  lemma CropsOnlyExample()
    ensures SelectFiles(["a.png", "cropped_a.png"], true) == ["cropped_a.png"]
  {
    var l := ["a.png", "cropped_a.png"];
    assert !IsCropName(l[0]) by {
      assert Lower(l[0])[0] == 'a';
    }
    assert Selected(l[1], true) by {
      assert Lower(l[1]) == l[1];
      assert Lower(l[1])[..|CropPrefix|] == CropPrefix;
      assert Lower(l[1])[|l[1]| - 4..] == ".png";
    }
    assert l[1..] == ["cropped_a.png"];
    assert l[1..][1..] == [];
  }
}

=== FILE: results_filter.dfy ===
/** The filter of the analysis-results window: optional lower and upper
    bounds per metric and a rating choice, applied to the whole result list. */
module ResultsFilter {
  import opened Wrappers
  import opened Seqs
  import opened PrunerIQ

  /** A metric's Min and Max entries, as numbers. An entry left empty, or
      one Python's `float()` rejects, is `None` and constrains nothing. */
  datatype Bounds = Bounds(min: Option<real>, max: Option<real>)

  const NoBounds: Bounds := Bounds(None, None)

  /** The six entries and the rating drop-down's text. */
  datatype Criteria = Criteria(contrast: Bounds, clarity: Bounds, noise: Bounds, rating: string)

  const AllRatings: string := "All"

  const NoCriteria: Criteria := Criteria(NoBounds, NoBounds, NoBounds, AllRatings)

  function BoundsFor(c: Criteria, k: Metric): Bounds {
    match k
    case Contrast => c.contrast
    case Clarity => c.clarity
    case Noise => c.noise
  }

  /** A value passes a bound unless it lies strictly below the minimum or
      strictly above the maximum. */
  predicate WithinBounds(b: Bounds, v: real) {
    (b.min.Some? ==> v >= b.min.value) && (b.max.Some? ==> v <= b.max.value)
  }

  predicate RatingAccepted(c: Criteria, r: MetricResult) {
    c.rating == AllRatings || RatingName(r.rating) == c.rating
  }

  /** The row is shown: every metric within its bounds and the rating accepted. */
  predicate Matches(c: Criteria, r: MetricResult) {
    (forall k :: WithinBounds(BoundsFor(c, k), Value(r, k))) && RatingAccepted(c, r)
  }

  function MatchesBy(c: Criteria): MetricResult -> bool {
    r => Matches(c, r)
  }

  /** The inner loop of `apply_filter`: the metrics in order, each checked
      against its minimum and then its maximum, stopping at the first miss. */
  method PassesBounds(r: MetricResult, c: Criteria) returns (passes: bool)
    ensures passes <==> forall k :: WithinBounds(BoundsFor(c, k), Value(r, k))
  {
    passes := true;
    var i := 0;
    while i < |MetricOrder|
      invariant 0 <= i <= |MetricOrder|
      invariant passes
      invariant forall j :: 0 <= j < i ==> WithinBounds(BoundsFor(c, MetricOrder[j]), Value(r, MetricOrder[j]))
    {
      var k := MetricOrder[i];
      var b := BoundsFor(c, k);
      var value := Value(r, k);
      if b.min.Some? && value < b.min.value {
        passes := false;
        break;
      }
      if b.max.Some? && value > b.max.value {
        passes := false;
        break;
      }
      i := i + 1;
    }
    if passes {
      forall k | true
        ensures WithinBounds(BoundsFor(c, k), Value(r, k))
      {
        assert k == MetricOrder[MetricIndex(k)];
      }
    }
  }

  function MetricIndex(k: Metric): (i: nat)
    ensures i < |MetricOrder| && MetricOrder[i] == k
  {
    match k
    case Contrast => 0
    case Clarity => 1
    case Noise => 2
  }

  /** `apply_filter`: the results that match, in their original order. */
  method ApplyFilter(all: seq<MetricResult>, c: Criteria) returns (filtered: seq<MetricResult>)
    ensures filtered == Filter(all, MatchesBy(c))
  {
    filtered := [];
    var i := 0;
    while i < |all|
      invariant 0 <= i <= |all|
      invariant filtered == Filter(all[..i], MatchesBy(c))
    {
      var r := all[i];
      var passes := PassesBounds(r, c);
      if c.rating != AllRatings && RatingName(r.rating) != c.rating {
        passes := false;
      }
      FilterSnoc(all[..i], r, MatchesBy(c));
      assert all[..i + 1] == all[..i] + [r];
      if passes {
        filtered := filtered + [r];
      }
      i := i + 1;
    }
    assert all[..i] == all;
  }

  /** The filter only hides rows: what it shows is in the original order,
      every row shown matches, and every matching row is shown. */
  lemma FilterShowsExactlyMatches(all: seq<MetricResult>, c: Criteria, r: MetricResult)
    ensures IsSubseq(Filter(all, MatchesBy(c)), all)
    ensures r in Filter(all, MatchesBy(c)) <==> r in all && Matches(c, r)
  {
    FilterIsSubseq(all, MatchesBy(c));
    FilterMembership(all, MatchesBy(c), r);
  }

  /** With every entry empty and "All" selected, nothing is hidden. */
  lemma NoCriteriaShowsAll(all: seq<MetricResult>)
    ensures Filter(all, MatchesBy(NoCriteria)) == all
  {
    FilterKeepsAll(all, MatchesBy(NoCriteria));
  }

  /** Rating names are distinct, so choosing one shows exactly that rating. */
  lemma RatingChoiceSelects(c: Criteria, x: Rating, r: MetricResult)
    requires c.rating == RatingName(x)
    ensures RatingAccepted(c, r) <==> r.rating == x
  {
  }

  /** One set of criteria is at least as strict as another. */
  ghost predicate Stricter(tight: Criteria, loose: Criteria) {
    forall r :: Matches(tight, r) ==> Matches(loose, r)
  }

  /** Applying stricter criteria to the full list gives the same rows as
      applying them to what looser criteria already showed. */
  lemma StricterRefines(all: seq<MetricResult>, tight: Criteria, loose: Criteria)
    requires Stricter(tight, loose)
    ensures Filter(all, MatchesBy(tight)) == Filter(Filter(all, MatchesBy(loose)), MatchesBy(tight))
  {
    FilterConjunction(all, MatchesBy(tight), MatchesBy(loose), MatchesBy(tight));
  }
}

=== FILE: seqs.dfy ===
/** Order-preserving filtering of sequences, shared by the folder scan, the
    crop-history delete and the analysis-results filter. */
module Seqs {

  /** `sub` is obtained from `xs` by deleting elements, keeping the order of the rest. */
  predicate IsSubseq<T(==)>(sub: seq<T>, xs: seq<T>)
    decreases |xs|
  {
    if |sub| == 0 then true
    else if |xs| == 0 then false
    else if sub[0] == xs[0] then IsSubseq(sub[1..], xs[1..])
    else IsSubseq(sub, xs[1..])
  }

  /** The elements of `xs` satisfying `keep`, in their original order
      (a Python list comprehension `[x for x in xs if keep(x)]`). */
  function Filter<T>(xs: seq<T>, keep: T -> bool): (ys: seq<T>)
    ensures |ys| <= |xs|
    ensures forall i :: 0 <= i < |ys| ==> keep(ys[i])
    decreases |xs|
  {
    if |xs| == 0 then []
    else if keep(xs[0]) then [xs[0]] + Filter(xs[1..], keep)
    else Filter(xs[1..], keep)
  }

  /** An element is in the filtered list exactly when it is in the input and kept. */
  lemma {:induction false} FilterMembership<T>(xs: seq<T>, keep: T -> bool, x: T)
    ensures x in Filter(xs, keep) <==> x in xs && keep(x)
    decreases |xs|
  {
    if |xs| > 0 {
      FilterMembership(xs[1..], keep, x);
      assert xs == [xs[0]] + xs[1..];
    }
  }

  /** Filtering a list with one more element at the end appends that element
      exactly when it is kept: this is what a loop that appends as it scans computes. */
  lemma {:induction false} FilterSnoc<T>(xs: seq<T>, x: T, keep: T -> bool)
    ensures Filter(xs + [x], keep) == Filter(xs, keep) + (if keep(x) then [x] else [])
    decreases |xs|
  {
    if |xs| == 0 {
      assert xs + [x] == [x];
    } else {
      assert (xs + [x])[1..] == xs[1..] + [x];
      FilterSnoc(xs[1..], x, keep);
    }
  }

  /** A filter result is a subsequence of its input. */
  lemma {:induction false} FilterIsSubseq<T>(xs: seq<T>, keep: T -> bool)
    ensures IsSubseq(Filter(xs, keep), xs)
    decreases |xs|
  {
    if |xs| > 0 {
      FilterIsSubseq(xs[1..], keep);
      if keep(xs[0]) {
        assert ([xs[0]] + Filter(xs[1..], keep))[1..] == Filter(xs[1..], keep);
      }
    }
  }

  /** Filtering with a conjunction is filtering twice. */
  lemma {:induction false} FilterConjunction<T>(xs: seq<T>, outer: T -> bool, inner: T -> bool, both: T -> bool)
    requires forall x :: both(x) == (outer(x) && inner(x))
    ensures Filter(xs, both) == Filter(Filter(xs, inner), outer)
    decreases |xs|
  {
    if |xs| > 0 {
      FilterConjunction(xs[1..], outer, inner, both);
      if inner(xs[0]) {
        assert ([xs[0]] + Filter(xs[1..], inner))[1..] == Filter(xs[1..], inner);
      }
    }
  }

  /** Filtering out one value drops every copy of it and keeps every copy
      of everything else. */
  lemma {:induction false} FilterRemoveAll<T>(xs: seq<T>, x: T, keep: T -> bool)
    requires forall y :: keep(y) == (y != x)
    ensures multiset(Filter(xs, keep)) == multiset(xs)[x := 0]
    decreases |xs|
  {
    if |xs| > 0 {
      FilterRemoveAll(xs[1..], x, keep);
      assert xs == [xs[0]] + xs[1..];
      assert multiset(xs) == multiset{xs[0]} + multiset(xs[1..]);
      if xs[0] == x {
        assert multiset(xs)[x := 0] == multiset(xs[1..])[x := 0];
      } else {
        assert multiset(xs)[x := 0] == multiset{xs[0]} + multiset(xs[1..])[x := 0];
      }
    }
  }

  /** Nothing is dropped when every element is kept. */
  lemma {:induction false} FilterKeepsAll<T>(xs: seq<T>, keep: T -> bool)
    requires forall i :: 0 <= i < |xs| ==> keep(xs[i])
    ensures Filter(xs, keep) == xs
    decreases |xs|
  {
    if |xs| > 0 {
      FilterKeepsAll(xs[1..], keep);
    }
  }

  /** Everything is dropped when no element is kept. */
  lemma {:induction false} FilterKeepsNone<T>(xs: seq<T>, keep: T -> bool)
    requires forall i :: 0 <= i < |xs| ==> !keep(xs[i])
    ensures Filter(xs, keep) == []
    decreases |xs|
  {
    if |xs| > 0 {
      FilterKeepsNone(xs[1..], keep);
    }
  }

  /** Whether Python accepts `i` as an index into a list of length `n`
      (negative indices count from the end). */
  predicate PyIndexValid(i: int, n: int) {
    -n <= i < n
  }

  /** The position Python's index `i` denotes in a list of length `n`. */
  function PyIndex(i: int, n: int): (p: nat)
    requires PyIndexValid(i, n)
    ensures p < n
    ensures 0 <= i ==> p == i
  {
    if i < 0 then i + n else i
  }

  /** `xs.pop(i)`: the list without its element at position `p`. */
  function RemoveAt<T>(xs: seq<T>, p: nat): (ys: seq<T>)
    requires p < |xs|
    ensures |ys| == |xs| - 1
    ensures forall j :: 0 <= j < p ==> ys[j] == xs[j]
    ensures forall j :: p <= j < |ys| ==> ys[j] == xs[j + 1]
    ensures multiset(ys) + multiset{xs[p]} == multiset(xs)
  {
    assert xs == xs[..p] + [xs[p]] + xs[p + 1..];
    xs[..p] + xs[p + 1..]
  }
}

=== FILE: text.dfy ===
/** Python string behaviour the program relies on, restricted to what the
    model needs: ASCII `str.lower`, `startswith`/`endswith`, `", ".join`,
    `str(n)` for naturals, `int(text)` in base 10 and `str.split(c)`. */
module Text {
  import opened Wrappers

  // ---------------------------------------------------------------- case

  predicate IsUpper(c: char) {
    'A' <= c <= 'Z'
  }

  function LowerChar(c: char): char {
    if IsUpper(c) then (c as int + 32) as char else c
  }

  /** `s.lower()` on ASCII letters: every character is mapped on its own. */
  function Lower(s: string): (r: string)
    ensures |r| == |s|
    ensures forall i :: 0 <= i < |s| ==> r[i] == LowerChar(s[i])
    ensures forall i :: 0 <= i < |r| ==> !IsUpper(r[i])
    ensures forall i :: 0 <= i < |s| && !IsUpper(s[i]) ==> r[i] == s[i]
    ensures forall i :: 0 <= i < |s| && IsUpper(s[i]) ==> 'a' <= r[i] <= 'z' && r[i] as int - s[i] as int == 32
  {
    seq(|s|, i requires 0 <= i < |s| => LowerChar(s[i]))
  }

  /** Lowering distributes over concatenation. */
  lemma LowerAppend(a: string, b: string)
    ensures Lower(a + b) == Lower(a) + Lower(b)
  {
    assert forall i :: 0 <= i < |a + b| ==> Lower(a + b)[i] == (Lower(a) + Lower(b))[i];
  }

  /** A string with no upper-case ASCII letter is its own lower-case form. */
  lemma LowerFixed(s: string)
    requires forall i :: 0 <= i < |s| ==> !IsUpper(s[i])
    ensures Lower(s) == s
  {
  }

  /** Lower-casing twice is lower-casing once. */
  lemma LowerIdempotent(s: string)
    ensures Lower(Lower(s)) == Lower(s)
  {
    LowerFixed(Lower(s));
  }

  // ------------------------------------------------------- prefix, suffix

  predicate StartsWith(s: string, prefix: string) {
    |prefix| <= |s| && s[..|prefix|] == prefix
  }

  predicate EndsWith(s: string, suffix: string) {
    |suffix| <= |s| && s[|s| - |suffix|..] == suffix
  }

  // ----------------------------------------------------------------- join

  /** `sep.join(parts)`. */
  function Join(parts: seq<string>, sep: string): (r: string)
    decreases |parts|
  {
    if |parts| == 0 then ""
    else if |parts| == 1 then parts[0]
    else parts[0] + sep + Join(parts[1..], sep)
  }

  /** A join of non-empty parts starts with the first part. */
  lemma {:induction false} JoinStartsWithFirst(parts: seq<string>, sep: string)
    requires |parts| > 0
    ensures StartsWith(Join(parts, sep), parts[0])
  {
    var r := Join(parts, sep);
    if |parts| > 1 {
      assert r == parts[0] + (sep + Join(parts[1..], sep));
    }
  }

  // ------------------------------------------------------------- decimals

  predicate IsDigit(c: char) {
    '0' <= c <= '9'
  }

  predicate AllDigits(s: string) {
    forall i :: 0 <= i < |s| ==> IsDigit(s[i])
  }

  function DigitChar(d: nat): (c: char)
    requires d < 10
    ensures IsDigit(c)
  {
    ('0' as int + d) as char
  }

  function DigitValue(c: char): (d: nat)
    requires IsDigit(c)
    ensures d < 10
    ensures DigitChar(d) == c
  {
    c as int - '0' as int
  }

  /** `str(n)` for a natural number: decimal digits, no leading zero. */
  function Decimal(n: nat): (r: string)
    ensures |r| >= 1
    ensures AllDigits(r)
    ensures r[0] == '0' <==> n == 0
    decreases n
  {
    if n < 10 then [DigitChar(n)] else Decimal(n / 10) + [DigitChar(n % 10)]
  }

  /** The number a string of decimal digits denotes (leading zeros allowed). */
  function DigitsValue(s: string): nat
    requires AllDigits(s)
    decreases |s|
  {
    if |s| == 0 then 0 else DigitsValue(s[..|s| - 1]) * 10 + DigitValue(s[|s| - 1])
  }

  /** Reading back the decimal form of `n` gives `n`. */
  lemma {:induction false} DecimalRoundTrip(n: nat)
    ensures DigitsValue(Decimal(n)) == n
    decreases n
  {
    if n >= 10 {
      var d := Decimal(n);
      assert d[..|d| - 1] == Decimal(n / 10);
      DecimalRoundTrip(n / 10);
    }
  }

  /** Distinct naturals have distinct decimal forms. */
  lemma DecimalInjective(m: nat, n: nat)
    requires Decimal(m) == Decimal(n)
    ensures m == n
  {
    DecimalRoundTrip(m);
    DecimalRoundTrip(n);
  }

  // ------------------------------------------------------ Python int(text)

  /** The ASCII characters Python's `int` strips around its argument: space,
      tab, line feed, vertical tab, form feed, carriage return and the four
      separators 0x1C-0x1F. */
  predicate IsSpace(c: char) {
    c == ' ' || '\t' <= c <= '\r' || '\U{001C}' <= c <= '\U{001F}'
  }

  function TrimLeft(s: string): (r: string)
    ensures |r| == 0 || !IsSpace(r[0])
    ensures |r| <= |s|
    decreases |s|
  {
    if |s| > 0 && IsSpace(s[0]) then TrimLeft(s[1..]) else s
  }

  function TrimRight(s: string): (r: string)
    ensures |r| == 0 || !IsSpace(r[|r| - 1])
    ensures |r| <= |s|
    decreases |s|
  {
    if |s| > 0 && IsSpace(s[|s| - 1]) then TrimRight(s[..|s| - 1]) else s
  }

  /** Digits, optionally grouped by single underscores between digits, as
      Python's base-10 integer literal syntax allows (`1_000`). */
  predicate DigitGroups(s: string) {
    && |s| > 0
    && IsDigit(s[0])
    && IsDigit(s[|s| - 1])
    && (forall i :: 0 <= i < |s| ==> IsDigit(s[i]) || s[i] == '_')
    && (forall i :: 0 <= i < |s| - 1 && s[i] == '_' ==> s[i + 1] != '_')
  }

  function RemoveUnderscores(s: string): (r: string)
    requires forall i :: 0 <= i < |s| ==> IsDigit(s[i]) || s[i] == '_'
    ensures AllDigits(r)
    decreases |s|
  {
    if |s| == 0 then ""
    else if s[0] == '_' then RemoveUnderscores(s[1..])
    else [s[0]] + RemoveUnderscores(s[1..])
  }

  /** Python's `int(text)`: `None` stands for the `ValueError` it raises. */
  function ParseInt(text: string): (r: Option<int>)
    ensures var t := TrimRight(TrimLeft(text));
      r.Some? <==> DigitGroups(t) || (|t| > 0 && (t[0] == '+' || t[0] == '-') && DigitGroups(t[1..]))
    ensures var t := TrimRight(TrimLeft(text));
      r.Some? && DigitGroups(t) ==> r.value == DigitsValue(RemoveUnderscores(t))
    ensures var t := TrimRight(TrimLeft(text));
      r.Some? && !DigitGroups(t) ==> r.value == (if t[0] == '-' then -1 else 1) * DigitsValue(RemoveUnderscores(t[1..]))
  {
    var t := TrimRight(TrimLeft(text));
    if |t| > 0 && (t[0] == '+' || t[0] == '-') then
      var body := t[1..];
      if DigitGroups(body) then
        var magnitude: int := DigitsValue(RemoveUnderscores(body));
        Some(if t[0] == '-' then -magnitude else magnitude)
      else None
    else if DigitGroups(t) then Some(DigitsValue(RemoveUnderscores(t)))
    else None
  }

  lemma {:induction false} RemoveUnderscoresOfDigits(s: string)
    requires AllDigits(s)
    ensures RemoveUnderscores(s) == s
    decreases |s|
  {
    if |s| > 0 {
      RemoveUnderscoresOfDigits(s[1..]);
    }
  }

  /** `int(str(n)) == n`. */
  lemma ParseIntDecimal(n: nat)
    ensures ParseInt(Decimal(n)) == Some(n)
  {
    var d := Decimal(n);
    assert !IsSpace(d[0]) && !IsSpace(d[|d| - 1]);
    assert TrimLeft(d) == d;
    assert TrimRight(d) == d;
    assert d[0] != '+' && d[0] != '-';
    assert DigitGroups(d);
    RemoveUnderscoresOfDigits(d);
    DecimalRoundTrip(n);
  }

  // ---------------------------------------------------------------- split

  /** Python's `s.split(c)` for a single-character separator. */
  function Split(s: string, c: char): (parts: seq<string>)
    ensures |parts| >= 1
    ensures c !in s ==> |parts| == 1
    decreases |s|
  {
    if |s| == 0 then [""]
    else
      var rest := Split(s[1..], c);
      if s[0] == c then [""] + rest
      else [[s[0]] + rest[0]] + rest[1..]
  }

  /** A string without the separator splits into itself. */
  lemma {:induction false} SplitNone(s: string, c: char)
    requires c !in s
    ensures Split(s, c) == [s]
    decreases |s|
  {
    if |s| > 0 {
      SplitNone(s[1..], c);
      assert [s[0]] + s[1..] == s;
    }
  }

  /** Splitting at the first separator peels off the text before it. */
  lemma {:induction false} SplitFirst(a: string, c: char, b: string)
    requires c !in a
    ensures Split(a + [c] + b, c) == [a] + Split(b, c)
    decreases |a|
  {
    if |a| == 0 {
      assert a + [c] + b == [c] + b;
      assert ([c] + b)[1..] == b;
    } else {
      assert (a + [c] + b)[1..] == a[1..] + [c] + b;
      SplitFirst(a[1..], c, b);
      assert [a[0]] + a[1..] == a;
    }
  }
}

=== FILE: viewer.dfy ===
/** The state the cropping window keeps between events, split by concern,
    and the feedback an event handler gives. Each handler of the window is
    modelled as a pure function from these records (plus the user's answers
    to any dialog it opens) to new records and a notice. */
module Viewer {
  import opened Wrappers
  import opened CropBox

  /** The message an event handler shows, if any. */
  datatype Notice =
    | Quiet             // no message
    | AskInputFolder    // "Please set an Input Folder from the File Menu!"
    | SelectInputFolder // "Please select an input folder."
    | NoImagesLoaded    // "No images loaded."
    | SafeModeBlocked   // "Safe Mode is enabled. Delete operations are disabled."
    | NothingToUndo     // "No cropped images to undo!"
    | InvalidSize       // "Please enter positive integers for width and height."
    | NoOutputFolder    // "Please set an Output Folder from the File Menu!"
    | Crashed           // an uncaught exception ended the handler midway

  datatype Outcome<T> = Outcome(value: T, notice: Notice)

  /** The loaded source images and the one being viewed. An empty
      `folderPath` stands for "no input folder" (Python's falsy path). */
  datatype Gallery = Gallery(folderPath: string, images: seq<string>, index: int)

  /** The guard most handlers start with: an input folder or some images. */
  predicate HasInput(g: Gallery) {
    g.folderPath != "" || |g.images| > 0
  }

  /** The crops written so far, newest first, the global crop counter and
      the output folder (empty when unset). */
  datatype CropLog = CropLog(outputFolder: string, counter: nat, cropped: seq<string>)

  /** The crop-size drop-down and the rectangle drawn on the canvas. */
  datatype CropTool = CropTool(
    options: seq<string>,   // the drop-down's entries, "Custom..." last
    choice: string,         // the selected entry ("WxH")
    previousSize: string,   // restored when the custom dialog is cancelled
    originalSize: Size,     // the size crops are saved at
    currentSize: Size,      // the size the rectangle shows
    rect: Option<Box>,      // the rectangle, once an image is displayed
    display: Display)

  const CustomOption: string := "Custom..."

  const PresetOptions: seq<string> :=
    ["512x512", "768x768", "1024x1024", "2048x2048", "512x768", "768x512", CustomOption]

  /** A drawn rectangle always sits over a displayed image, whose scale is
      positive and whose displayed sides are not negative. */
  predicate Ready(t: CropTool) {
    t.rect.Some? ==> t.display.scale > 0.0 && t.display.scaledWidth >= 0 && t.display.scaledHeight >= 0
  }

  /** The tool when the window opens: 512x512 selected, no image shown. */
  const InitialTool: CropTool :=
    CropTool(PresetOptions, "512x512", "512x512", Size(512, 512), Size(512, 512), None, Display(0, 0, 0, 0, 1.0))

  /** No output folder, the crop counter at 0 and no crops yet. */
  const InitialLog: CropLog := CropLog("", 0, [])
}

=== FILE: wrappers.dfy ===
/** The option type used where the program has a "no value" case (an
    unparseable number, an empty filter entry, a name that is no pane). */
module Wrappers {

  datatype Option<+T> = None | Some(value: T)
}
